=== FILE: README.md ===
# AI text editor: editor store, edit application and edit endpoint

This project models the core of an AI-assisted text editor in Dafny.
The front end keeps the document, the conversation and the pending
proposal in a store. The back end turns an editing request into a prompt
for a language model and passes the model's JSON reply back. The model
covers three parts.

- **The editor store** (`frontend/src/store/editorStore.ts`). It is a class
  `Store.EditorStore` with the six fields of the store: `fileContent`,
  `currentText`, `history`, `isLoading`, `error` and `lastProposal`. Its
  methods are `setFileContent`, `clearError`, `startFeedback`, `applyEdit`
  and `rejectEdit`. The two synchronous halves of `sendMessage` are also
  methods: before the request (`SendBegin`) and after the reply or the
  failure (`SendComplete`, `SendFailed`). Every method keeps the invariant
  that the history holds at most one apply-error entry.
- **Applying a proposal** (`applyEdit`). There are three kinds.
  - A single edit: the literal fragment must occur exactly once, using
    JavaScript's global-regex matching of the escaped fragment and
    `String.prototype.replace` with its `$` patterns.
  - Multiple edits: every edit is validated against one snapshot, and the
    result is all or nothing. The edits are sorted by descending start and
    spliced.
  - Full replacement.

  The search loop, the validation loop and the splice loop are methods.
  Each is proved equal to a specification function, and the properties
  are proved about those functions.
- **The `edit` endpoint** (`backend/functions/main.py`). This part covers:
  - method, body, missing-key and type validation, with aggregated
    messages;
  - the choice among the three prompt templates;
  - code-fence stripping of the model's reply;
  - acceptance of a reply as a dict with a truthy `status`, with the
    fallbacks to `conversation` and `error` replies.

The data types follow `frontend/src/lib/types.ts` (module `Types`). A
reply's status has the seven declared tags plus `Unrecognised(tag)`,
because the back end forwards any dict with a truthy `status`. The status
a reply carries is a `Status`, whose `Unrecognised` tag is never a declared
name, so each wire tag has exactly one model value. The edit fields
`old_string`, `new_string` and `content` are `None` when they are missing
or not strings, which is all the store's `typeof` checks distinguish
when they decide an outcome. `JSON.stringify` is applied to these reduced
records, not to the raw JSON values; see `Apply.ProblemText` and
`Store.ApiContent` under "## Left out".
`message` is read without a `typeof` check; see `Store.ReplyError` under
"## Left out". JSON values on the back end are Python values with Python
truthiness and type names (module `Json`).

Several things are outside the model and are given as parameters:
- fresh ids (`nanoid`);
- `JSON.stringify` (`stringify`);
- `json.loads` (`parse`, with `None` for a decode error);
- Python's `repr` of a list or dict (`show`);
- the model call (`complete`, given the request's history and the final
  user message);
- the whole `get_openai_response_api` call as seen by the handler
  (`gateway`, with `None` for an exception).

## Model

| member | source | states |
|---|---|---|
| Store.EditorStore.constructor | frontend/src/store/editorStore.ts:32-37 | The store starts with empty texts and history, not loading, with no error and no proposal. |
| Store.EditorStore.SetFileContent | frontend/src/store/editorStore.ts:39-47 | Loading a file sets both texts to it and clears the history, the proposal and the error. The loading flag is untouched. |
| Store.EditorStore.ClearError | frontend/src/store/editorStore.ts:49-51 | Only the error is cleared. Every other field stays. |
| Store.EditorStore.StartFeedback | frontend/src/store/editorStore.ts:53-55 | Only the pending proposal is replaced. Every other field stays. |
| Store.EditorStore.SendBegin | frontend/src/store/editorStore.ts:57-106 | A blank message (empty after a JavaScript trim) changes nothing and sends nothing. Otherwise, in this order: the trimmed user entry and a loading entry are appended; the store is loading with no error; the proposal survives only for feedback; the request carries the old current text, the trimmed message, the API view of the history as it was before this turn (reply objects stringified), the feedback flag and the proposal under review. |
| Store.EditorStore.SendComplete | frontend/src/store/editorStore.ts:108-134 | Loading entries are removed and the reply is appended with its message type. A proposal becomes pending. An `error` reply sets the error (its message, or the default when empty) and drops the proposal. `clarification_needed`, `conversation` and `rejected` drop the proposal. An unrecognised status changes neither. |
| Store.EditorStore.SendFailed | frontend/src/store/editorStore.ts:136-153 | Loading entries are removed. An `エラー: ` entry is appended. The error is the exception message, or the default when empty, and the proposal is dropped. |
| Store.EditorStore.ApplyEdit | frontend/src/store/editorStore.ts:156-291 | With no proposal, nothing changes. On success, the new text is committed, the proposal and the error are cleared and one note is appended. On failure, the text and proposal stay, the error is set, and an `適用エラー: ` entry is appended only when the history has none yet, so the history then holds exactly one apply-error entry. A status that proposes nothing leaves the store as it was. |
| Store.EditorStore.RejectEdit | frontend/src/store/editorStore.ts:293-306 | With a proposal, it is dropped, the error is cleared and a note naming its status is appended. Without one, nothing changes. |
| Store.SomeApplyErrorCount | frontend/src/store/editorStore.ts:278-288 | When `findIndex` finds an apply-error entry, the history holds at least one, so a failed apply that appends nothing still leaves exactly one. |
| Store.FirstApplyError | frontend/src/store/editorStore.ts:278-280 | The result is -1 exactly when no entry is an apply error. Otherwise it is the index of the first one. |
| Store.ApplyErrorCountAppend | frontend/src/store/editorStore.ts:278-288 | The number of apply-error entries adds up over concatenated histories. |
| Store.RemoveLoading | frontend/src/store/editorStore.ts:109-111 | The filtered history holds exactly the entries that are not loading entries, and is no longer than the history. |
| Store.RemoveLoadingAppend | frontend/src/store/editorStore.ts:109-111 | The filter works entry by entry: filtering a concatenation is the concatenation of the filtered parts, so order and multiplicity are kept. |
| Store.RemoveLoadingOne | frontend/src/store/editorStore.ts:109-111 | A single entry is dropped exactly when it is a loading entry, and kept otherwise. |
| Store.RemoveLoadingCount | frontend/src/store/editorStore.ts:140-142 | Removing loading entries keeps the number of apply-error entries. |
| Store.SendNoteNotApplyError | frontend/src/store/editorStore.ts:143-148 | A send-failure entry never counts as an apply-error entry, whatever its message. |
| Store.ApiHistoryAppend | frontend/src/store/editorStore.ts:87-96 | The API view of the history distributes over concatenation. That view drops loading and system-info entries, keeps text content, and turns a reply object into text with `JSON.stringify`. |
| Store.DropLast | frontend/src/store/editorStore.ts:98 | `slice(0, -1)` removes exactly the last element, and leaves an empty list empty. |
| Store.ApiHistoryOmitsTurn | frontend/src/store/editorStore.ts:87-98 | Once the user entry and the loading entry are pushed, dropping the last API message leaves exactly the API view of the history before the turn. The current message is sent separately, not twice. |
| Store.NewTurnCount | frontend/src/store/editorStore.ts:68-78 | Pushing a user entry and a loading entry adds no apply-error entry. |
| Store.ReplyKind | frontend/src/store/editorStore.ts:113-130 | A reply entry is a proposal exactly when the status proposes a change, and an error exactly when the status is `error`. It is normal exactly when the status does neither, which includes an unrecognised status. |
| Store.ReplyError | frontend/src/store/editorStore.ts:125 | The store's error is never empty, and it is the reply's message when that is non-empty. |
| Store.SendError | frontend/src/store/editorStore.ts:138 | The error is never empty, and it is the exception message when that is non-empty. |
| Apply.ComputeApply | frontend/src/store/editorStore.ts:164-256 | The outcome of applying a proposal to the current text is `ApplyProposal`, whose properties are the lemmas below. |
| Apply.UnchangedIffNotProposal | frontend/src/store/editorStore.ts:165-256 | The store is left unchanged exactly when the status is none of `success`, `multiple_edits` and `replace_all`. |
| Apply.SingleAppliedIff | frontend/src/store/editorStore.ts:165-184 | A well-formed single edit applies if and only if the fragment occurs at a position that every other occurrence overlaps, that is, the global match finds exactly one match. |
| Apply.SingleUnique | frontend/src/store/editorStore.ts:165-176 | A fragment occurring exactly once is replaced there by the replacement (without `$`). The rest of the text is kept and the length changes by the difference. |
| Apply.SingleAbsent | frontend/src/store/editorStore.ts:179-181 | An absent fragment fails with the not-found message. |
| Apply.SingleAmbiguous | frontend/src/store/editorStore.ts:177-178 | Two non-overlapping occurrences fail with the count message, and the count is at least two. |
| Apply.SingleMalformed | frontend/src/store/editorStore.ts:182-184 | A single edit whose old or new string is missing or not a string fails with the invalid-format message. |
| Apply.MultiAllOrNothing | frontend/src/store/editorStore.ts:194-229 | A multi-edit fails if and only if its edits cannot all be applied together. The failure message is the header followed by one line per problem, in the order found (`MultiFailure` over `ProblemTexts`), so it contains every problem's text. |
| Apply.AcceptedLocations | frontend/src/store/editorStore.ts:194-225 | When all edits are applicable, the validated list is each edit's unique location, in order. |
| Apply.MultiApplied | frontend/src/store/editorStore.ts:231-242 | An applicable multi-edit yields the simultaneous replacement of all the edits' locations. The note counts every edit. |
| Apply.Arranged | frontend/src/store/editorStore.ts:231 | The sorted validated edits are a permutation of the validated ones, in descending order and inside the text. |
| Apply.ProblemTexts | frontend/src/store/editorStore.ts:196-219 | There is one message per problem, in the order found. |
| Apply.ReplaceAllVerbatim | frontend/src/store/editorStore.ts:247-256 | A full replacement yields its content verbatim. Replacing with the same text is the identity. |
| Apply.FailureMessageNonEmpty | frontend/src/store/editorStore.ts:272-274 | Every failure has a non-empty message, so the default message is never needed. |
| Search.FindAll | frontend/src/store/editorStore.ts:199-208 | The `exec` loop, with its `lastIndex` bump on an empty match, collects exactly the global-match offsets `Occurrences`. |
| Search.FirstMatchFromIsFirst | frontend/src/store/editorStore.ts:203 | `exec` from `lastIndex` finds the first match at or after it, and reports none only when there is none. |
| Search.OccurrencesFromSound | frontend/src/store/editorStore.ts:169-171 | Every reported offset is a real match, and consecutive offsets are at least one match length (at least one) apart: the matches do not overlap. |
| Search.OccurrencesFromComplete | frontend/src/store/editorStore.ts:169-171 | Every occurrence lies within one match length of a reported offset. |
| Search.NoOccurrencesIffAbsent | frontend/src/store/editorStore.ts:170-171 | The count is zero exactly when the fragment does not occur. |
| Search.UniqueOccurrence | frontend/src/store/editorStore.ts:170-174 | A fragment occurring at only one position is reported once, at that position. |
| Search.SingleOccurrence | frontend/src/store/editorStore.ts:173-174 | A count of one means the reported position is a match, and every occurrence overlaps it. |
| Search.TwoOccurrences | frontend/src/store/editorStore.ts:177-178 | Two non-overlapping occurrences give a count of at least two. |
| Search.EmptyFragment | frontend/src/store/editorStore.ts:169-171 | An empty fragment matches at every position, `|text| + 1` times. |
| Search.EscapeRegExp | frontend/src/store/editorStore.ts:310-312 | Escaping never shortens the string. |
| Search.EscapedIsLiteral | frontend/src/store/editorStore.ts:310-312 | The escaped pattern denotes exactly the original string as a literal, for every string. |
| Substitution.ReplaceAt | frontend/src/store/editorStore.ts:174 | Replacing the match at a position keeps the text before and after it, whatever the replacement. A replacement without `$` is inserted as it is. |
| Substitution.ExpandPlain | frontend/src/store/editorStore.ts:174 | A replacement pattern without `$` expands to itself. |
| MultiEdit.ValidateEdits | frontend/src/store/editorStore.ts:194-225 | The validation loop records exactly the problems and validated edits of `Validate`. `overlappingIndices` is the union of the validated ranges. |
| MultiEdit.RangeSet | frontend/src/store/editorStore.ts:217 | The range set holds exactly the indices from start (inclusive) to end (exclusive). |
| MultiEdit.CoveredDisjoint | frontend/src/store/editorStore.ts:218 | A range misses `overlappingIndices` exactly when it misses every validated range. |
| MultiEdit.ValidateCounts | frontend/src/store/editorStore.ts:194-225 | Each edit gives exactly one problem or one validated edit. |
| MultiEdit.LocationOf | frontend/src/store/editorStore.ts:215-216 | The located range lies inside the text, is as long as the fragment and matches it. |
| MultiEdit.ApplicableAccepted | frontend/src/store/editorStore.ts:194-225 | Edits that are all applicable together (well formed, each found exactly once, pairwise disjoint) give no problem and are validated in order at their locations. |
| MultiEdit.CleanApplicable | frontend/src/store/editorStore.ts:194-229 | A validation without problems means the edits are all applicable together. |
| MultiEdit.ValidateClean | frontend/src/store/editorStore.ts:194-229 | There are no problems if and only if all edits are applicable together. The validated list is then each edit's location, in order. |
| MultiEdit.ValidateAcceptedSound | frontend/src/store/editorStore.ts:199-223 | Every validated edit sits at the only match of its fragment, and the validated ranges are pairwise disjoint, whatever else was rejected. |
| MultiEdit.SpanDisjointApart | frontend/src/store/editorStore.ts:218-222 | Disjoint non-empty ranges lie one entirely before the other. |
| MultiEdit.SortByStartDescending | frontend/src/store/editorStore.ts:231 | The sort returns a permutation of the validated edits, ordered by descending start. |
| MultiEdit.SpliceAll | frontend/src/store/editorStore.ts:232-236 | The splice loop yields the simultaneous replacement of all ranges, and counts every edit. |
| MultiEdit.ReplaceAppend | frontend/src/store/editorStore.ts:233-235 | Text after every range is left untouched by the splicing. |
| MultiEdit.ReplaceKeepsPrefix | frontend/src/store/editorStore.ts:233-235 | Text before the lowest range is left untouched by the splicing. |
| MultiEdit.ReplaceLength | frontend/src/store/editorStore.ts:233-235 | The length changes by the sum of each edit's change. |
| Types.FromName | frontend/src/lib/types.ts:4 | Reading a wire tag gives a status whose name is that tag. It is unrecognised exactly when the tag is none of the seven declared names. |
| Types.NameDetermines | frontend/src/lib/types.ts:4 | Every status is what its own wire name reads back to. |
| Types.NameInjective | frontend/src/lib/types.ts:4 | Two statuses have the same wire name exactly when they are the same status, so the store's comparisons `response.status === '…'` see one value per tag. |
| Strings.Trim | frontend/src/store/editorStore.ts:58 | The result has no whitespace at either end and is no longer than the input. The same function, with Python's whitespace set, is `str.strip`. |
| Strings.TrimDropsSpace | frontend/src/store/editorStore.ts:58 | Trimming removes whitespace and nothing else. The result is the slice of the input between a head and a tail that are all whitespace. |
| Strings.TrimEmptyIffAllSpace | frontend/src/store/editorStore.ts:58-59 | A message trims to empty exactly when it is all whitespace. |
| Strings.Head | frontend/src/store/editorStore.ts:178-180 | `substring(0, n)` is a prefix of the string. It is the whole string when that is at most n characters, and exactly n characters otherwise. |
| Strings.JoinContainsParts | frontend/src/store/editorStore.ts:228 | Every part occurs in the joined string. |
| Reply.ProcessContent | backend/functions/main.py:212-221 | The stepwise reassignment of the reply text gives `StripFences`. |
| Reply.StripFences | backend/functions/main.py:212-221 | The processed text has no Python whitespace at either end. |
| Reply.DropClosingFence | backend/functions/main.py:215-216 | A closing fence is removed exactly. Text without one stays. |
| Reply.StripJsonFence | backend/functions/main.py:212-221 | A reply that is a block fenced as JSON once stripped, with any whitespace around the fences, yields the block's stripped contents. |
| Reply.StripBareFence | backend/functions/main.py:212-221 | A reply that is a bare fenced block once stripped, with any whitespace around the fences, yields the block's stripped contents, unless they begin with `json`. |
| Reply.StripUnfenced | backend/functions/main.py:212-221 | Text that does not begin with a fence is only stripped, and a lone closing fence stays. |
| Reply.StripIdempotent | backend/functions/main.py:212-221 | Processing an already processed, unfenced text changes nothing. |
| Reply.Conversation | backend/functions/main.py:234 | The fallback reply has status `conversation` and carries the given message. |
| Reply.InterpretReply | backend/functions/main.py:210-243 | Whatever the model sent, the result is a dict with a truthy `status`. |
| Reply.AcceptedAsParsed | backend/functions/main.py:224-228 | A reply that parses to a dict with a truthy status is passed on unchanged. |
| Reply.RejectedBecomesConversation | backend/functions/main.py:229-240 | A reply that does not parse, or parses to anything else, becomes a `conversation` reply that shows the processed text. |
| Reply.EmptyIsError | backend/functions/main.py:241-243 | No reply text, or an empty one, gives the empty-reply error. |
| Prompt.ChoosePrompt | backend/functions/main.py:147-191 | The plain-instruction template is chosen exactly when there is no feedback on a truthy previous proposal. It then embeds the current file and the instruction. |
| Prompt.ReplaceAllRevisesContent | backend/functions/main.py:152-170 | Feedback on a `replace_all` proposal with string content revises that content, and the prompt shows it. |
| Prompt.SuccessRevisesPair | backend/functions/main.py:154-170 | Feedback on a `success` proposal revises its before/after block. A missing string shows as empty. |
| Prompt.OtherFeedbackRevisesFile | backend/functions/main.py:171-181 | Feedback on any other proposal revises the current file, which the prompt embeds, and names the previous status. |
| Prompt.PromptCarriesMessage | backend/functions/main.py:162-191 | Every template embeds the user's latest message. |
| Prompt.ChosenCarriesMessage | backend/functions/main.py:147-191 | The chosen template always carries the user's latest message. |
| Prompt.InstructEmbedsFile | backend/functions/main.py:182-191 | A plain instruction embeds the current file. |
| Handler.HandleEdit | backend/functions/main.py:272-348 | The handler's body, with its type-error loop over the required keys, gives the response `Handle` specifies. |
| Handler.Handle | backend/functions/main.py:272-358 | The status is always one of 200, 204, 400, 405 and 500. |
| Handler.MethodChecks | backend/functions/main.py:272-286 | A pre-flight request gets 204 with no body, and a method other than POST gets 405. A POST without a client gets the 500 configuration error. |
| Handler.EmptyBody | backend/functions/main.py:289-296 | A body that is not JSON, or is falsy, gets the 400 body error. |
| Handler.MissingFrom | backend/functions/main.py:306 | For a dict body, the missing list holds exactly the required keys absent from it, and is empty when all are present. |
| Handler.MissingKeysReported | backend/functions/main.py:306-313 | A dict body lacking required keys gets a 400 whose message names every missing key, and only those are listed. |
| Handler.KeyTypeErrors | backend/functions/main.py:315-318 | There are no type errors exactly when every required value has its expected type, and there is at most one error per key. |
| Handler.KeyTypeErrorsComplete | backend/functions/main.py:315-318 | Every key whose value has the wrong type gets its own message in the list. |
| Handler.KeyTypeErrorsSound | backend/functions/main.py:315-318 | Every message in the list is the message of a key whose value has the wrong type. |
| Handler.TypeErrors | backend/functions/main.py:315-325 | There are no errors exactly when every required value has its type and, for feedback, the previous proposal is a dict or null. The per-key messages come first. The previous-proposal message is added last, exactly when that check fails. |
| Handler.TypeErrorsReported | backend/functions/main.py:315-348 | A body with all keys but some type error gets a 400 whose message contains every error. Otherwise the gateway's reply is returned with 200, and its exception gives 500. |
| Handler.Previous | backend/functions/main.py:321 | A previous proposal is present exactly when the key is there with a non-null value, and it is then that value. An explicit `null` counts as absent. |
| Handler.CallOf | backend/functions/main.py:335-341 | The gateway receives the request's file content, message, history, feedback flag and previous proposal (`None` for a missing one or `null`). |
| Handler.ValidCallFitsPrompt | backend/functions/main.py:320-341 | A validated request with feedback on a truthy previous proposal always passes a dict, which the prompt choice relies on. |
| Handler.Respond | backend/functions/main.py:116-243 | The gateway raises exactly in two cases. One is a history entry that is not a dict (`msg.get`). The other is a truthy previous proposal on feedback that is not a dict. Otherwise it chooses the template, calls the model on the history and the chosen message, and interprets the reply, and the result has a truthy `status`. |
| Handler.ValidCallAnswered | backend/functions/main.py:132-358 | For a validated request, the prompt is well defined and carries the user's message. When every history entry is a dict, the handler answers 200 with a reply carrying a truthy `status`. Otherwise the history loop raises and the answer is 500. |

## Left out

- Search.EscapeRegExp: its contract states only that escaping never shortens the string. Its meaning is proved separately, by `EscapedIsLiteral` against `LiteralText`, for the fixed set of regex syntax characters. Regex semantics beyond literal matching are not modelled.
- Apply.SingleUnique: it requires a replacement without `$`. With `$` the replacement is expanded by `String.prototype.replace`; that expansion (`$$`, `$&`, `` $` ``, `$'`) is modelled by `Substitution.Expand`, and `ApplyProposal` uses it.
- Strings.Head: it counts characters. JavaScript's `substring` and `length` count UTF-16 code units, so text outside the basic plane is measured differently.
- Text offsets everywhere: they are sequence indices over characters, not UTF-16 code units.
- The model call itself: it is a parameter (`complete` for the reply text, `gateway` for the handler's view of it). This covers `client.chat.completions.create`, the API key and client set-up, and the mapping of OpenAI exceptions to error replies (main.py:245-257).
- The rebuilding of the conversation history for the model (main.py:132-143), and the system prompt: `complete` receives the request's history entries and the final user message, so the reply may depend on both. The system prompt is a constant, and the re-encoding of assistant entries with `json.loads`/`json.dumps` happens inside `complete`; neither is modelled further. The one way the rebuilding can fail is modelled: an entry that is not a dict raises `AttributeError` in `msg.get`, which gives a 500 (`Handler.Respond`, `Handler.ValidCallAnswered`).
- Store.ReplyError: the store reads `response.message || default` without a `typeof` check (editorStore.ts:125), so a truthy non-string `message` (a number, say, which the back end forwards unchanged) becomes the error as it is. The model's `message` is an optional string: a non-string message is `None`, and the default text is shown instead.
- Types.Status: tags are strings. A truthy `status` that is not a string, which the back end also forwards, is not represented.
- `JSON.stringify`, `json.loads` and Python's `repr` of lists and dicts: they are parameters (`stringify`, `parse`, `show`).
- JSON numbers: they are integers only, with no floating point.
- A `null` element of an `edits` array: in the front end, reading `edit.old_string` (editorStore.ts:195) throws a `TypeError`. That ends the validation, and the error shown is the `TypeError`'s own message, not the collected list of problems. The model has no null element: every element is an `Edit` whose fields may be absent or not strings. Such an element is reported as an invalid-format problem, and the validation goes on. For elements that are numbers, strings or arrays, the outcome (which edits are problems, and whether the multi-edit fails) is as in the model; the text of their problem lines is not (see `Apply.ProblemText`).
- Apply.ProblemText: `JSON.stringify` is modelled over the reduced `Edit` record, not over the raw JSON element that editorStore.ts:196 prints. Elements the store tells apart in that line can coincide in the model. For example, `{"old_string":5,"new_string":"x"}` and `{"new_string":"x"}` are both `Edit(None, Some("x"))`, and `5` and `{}` are both `Edit(None, None)`. The model prints one text for each such pair, where the source prints two.
- Store.ApiContent: `JSON.stringify` of a reply entry is modelled over the reduced `AiResponse` record, not over the stored object that editorStore.ts:87-96 sends. Extra keys of the reply, and fields that are not strings, do not reach the history text in the model.
- Networking, `async`/`await`, the HTTP client `callEditApi`, and the ordering of concurrent sends: `sendMessage` is modelled as its two synchronous halves. `isLoading` is recorded but nothing is gated on it.
- Fresh ids (`nanoid`): they are parameters. Logging (`console`, `print`) has no effect on state.
- CORS headers and MIME types of responses: only the status and the body are modelled.
- React components and the rest of the front end: they are not part of this model.

=== FILE: apply.dfy ===
/**
 * What `applyEdit` (frontend/src/store/editorStore.ts) computes from the
 * pending proposal and the current text, before anything is committed: the
 * new text and the history note, an error message, or nothing at all.
 */
module Apply {
  import opened Wrappers
  import opened Strings
  import opened Types
  import opened Search
  import opened Substitution
  import opened MultiEdit

  /**
   * `Applied`: the text to commit and the note to record; `Failed`: the
   * message of the error thrown; `Unchanged`: a status that proposes nothing.
   */
  datatype Outcome = Unchanged | Applied(text: string, note: string) | Failed(message: string)

  const SingleNote := "提案 (単一編集) を適用しました。"
  const ReplaceAllNote := "提案 (全体置換) を適用しました。"

  function MultiNote(count: nat): string {
    "提案 (" + NatToString(count) + "箇所の複数編集) を適用しました。"
  }

  /** The message for a payload whose fields do not have the expected types. */
  function InvalidShape(status: AiStatus): string {
    "提案の形式が無効です (" + status.Name() + ")。"
  }

  function AmbiguousMessage(fragment: string, count: nat): string {
    "変更元テキストが複数 (" + NatToString(count) + "箇所) 見つかりました。適用を中止します。\n変更元: " + Head(fragment, 50) + "..."
  }

  function NotFoundMessage(fragment: string): string {
    "変更元テキストが見つかりませんでした。\n変更元: " + Head(fragment, 50) + "..."
  }

  /** One line of the multi-edit error; `stringify` stands for `JSON.stringify` of the reduced `Edit` record. */
  function ProblemText(p: Problem, stringify: Edit -> string): string {
    match p
    case Malformed(e) => "無効な編集形式: " + stringify(e)
    case NotFound(fragment) => "変更元が見つかりません: " + Head(fragment, 30) + "..."
    case Ambiguous(fragment, count) => "変更元が複数 (" + NatToString(count) + ") 見つかりました: " + Head(fragment, 30) + "..."
    case Overlapping(fragment) => "他の編集と重複します: " + Head(fragment, 30) + "..."
  }

  function ProblemTexts(ps: seq<Problem>, stringify: Edit -> string): (r: seq<string>)
    ensures |r| == |ps| && forall i :: 0 <= i < |ps| ==> r[i] == ProblemText(ps[i], stringify)
  {
    if ps == [] then [] else [ProblemText(ps[0], stringify)] + ProblemTexts(ps[1..], stringify)
  }

  function MultiFailure(ps: seq<Problem>, stringify: Edit -> string): string {
    "複数編集の検証エラー:\n- " + Join(ProblemTexts(ps, stringify), "\n- ")
  }

  /** The `success` branch: replace only when the global search reports exactly one match. */
  function ApplySingle(text: string, p: AiResponse): Outcome {
    if p.oldString.None? || p.newString.None? then Failed(InvalidShape(Success))
    else
      var fragment := p.oldString.value;
      var occ := Occurrences(text, fragment);
      if |occ| == 1 then
        OccurrencesFromSound(text, fragment, 0);
        Applied(ReplaceAt(text, occ[0], |fragment|, p.newString.value), SingleNote)
      else if |occ| > 1 then Failed(AmbiguousMessage(fragment, |occ|))
      else Failed(NotFoundMessage(fragment))
  }

  /** The accepted edits satisfy what sorting and splicing need. */
  lemma AcceptedSortable(text: string, edits: seq<Edit>)
    ensures NonEmpty(Validate(text, edits).accepted)
    ensures PairwiseApart(Validate(text, edits).accepted)
    ensures forall l :: l in Validate(text, edits).accepted ==> l.end <= |text|
  {
    var acc := Validate(text, edits).accepted;
    ValidateAcceptedSound(text, edits);
    forall i, j | 0 <= i < j < |acc| ensures Apart(acc[i], acc[j]) {
      assert acc[i] in acc && acc[j] in acc;
      SpanDisjointApart(acc[i], acc[j]);
    }
  }

  /** Sequences with the same multiset hold the same elements and have the same length. */
  lemma SameElements<T>(a: seq<T>, b: seq<T>)
    requires multiset(a) == multiset(b)
    ensures |a| == |b|
    ensures forall y :: y in a <==> y in b
  {
    assert |multiset(a)| == |multiset(b)|;
    forall y ensures y in a <==> y in b {
      assert y in a <==> y in multiset(a);
      assert y in b <==> y in multiset(b);
    }
  }

  /** Sorting keeps every range inside the text. */
  lemma SortedWithin(text: string, acc: seq<Located>)
    requires NonEmpty(acc) && PairwiseApart(acc)
    requires forall l :: l in acc ==> l.end <= |text|
    ensures Within(text, SortByStartDescending(acc))
  {
    var d := SortByStartDescending(acc);
    SameElements(d, acc);
    forall i | 0 <= i < |d| ensures d[i].start <= d[i].end <= |text| {
      assert d[i] in d;
    }
  }

  /** The accepted edits, highest start first. */
  function Arranged(text: string, edits: seq<Edit>): (d: seq<Located>)
    ensures Descending(d) && Within(text, d)
    ensures multiset(d) == multiset(Validate(text, edits).accepted)
  {
    AcceptedSortable(text, edits);
    var d := SortByStartDescending(Validate(text, edits).accepted);
    SortedWithin(text, Validate(text, edits).accepted);
    d
  }

  /** The `multiple_edits` branch: all problems fail the whole proposal, otherwise splice. */
  function ApplyMulti(text: string, p: AiResponse, stringify: Edit -> string): Outcome {
    if p.edits.None? then Failed(InvalidShape(MultipleEdits))
    else
      var v := Validate(text, p.edits.value);
      if v.problems != [] then Failed(MultiFailure(v.problems, stringify))
      else
        var d := Arranged(text, p.edits.value);
        Applied(ReplaceSimultaneously(text, d), MultiNote(|d|))
  }

  /** The `replace_all` branch. */
  function ApplyReplaceAll(p: AiResponse): Outcome {
    if p.content.None? then Failed(InvalidShape(ReplaceAll))
    else Applied(p.content.value, ReplaceAllNote)
  }

  /** The outcome of applying proposal `p` to `text`. */
  function ApplyProposal(text: string, p: AiResponse, stringify: Edit -> string): Outcome {
    match p.status
    case Success => ApplySingle(text, p)
    case MultipleEdits => ApplyMulti(text, p, stringify)
    case ReplaceAll => ApplyReplaceAll(p)
    case _ => Unchanged
  }

  // ---- Properties of the outcome.

  /** Only the three proposal kinds do anything; every other status leaves the text alone. */
  lemma UnchangedIffNotProposal(text: string, p: AiResponse, stringify: Edit -> string)
    ensures ApplyProposal(text, p, stringify) == Unchanged <==> !p.status.IsProposal()
  {
  }

  /**
   * A single edit applies exactly when its fragment has a match that every
   * other match overlaps (so the global search reports one match).
   */
  lemma SingleAppliedIff(text: string, fragment: string, replacement: string, p: AiResponse, stringify: Edit -> string)
    requires p.status == Success && p.oldString == Some(fragment) && p.newString == Some(replacement)
    ensures ApplyProposal(text, p, stringify).Applied? <==>
              exists at :: MatchAt(text, fragment, at) && forall q :: MatchAt(text, fragment, q) ==> at <= q < at + Step(fragment)
  {
    var occ := Occurrences(text, fragment);
    OccurrencesFromSound(text, fragment, 0);
    if |occ| == 1 {
      SingleOccurrence(text, fragment);
      assert MatchAt(text, fragment, occ[0]);
    } else {
      forall at | MatchAt(text, fragment, at)
        ensures exists q :: MatchAt(text, fragment, q) && !(at <= q < at + Step(fragment))
      {
        NoOccurrencesIffAbsent(text, fragment);
        assert |occ| >= 2;
        if occ[0] < at {
          assert MatchAt(text, fragment, occ[0]);
        } else {
          assert MatchAt(text, fragment, occ[1]) && occ[0] + Step(fragment) <= occ[1];
        }
      }
    }
  }

  /**
   * A fragment with exactly one occurrence is replaced in place by a
   * replacement without `$`: prefix, replacement, suffix, and the length
   * changes by the difference of the two lengths.
   */
  lemma SingleUnique(text: string, fragment: string, replacement: string, at: nat, p: AiResponse, stringify: Edit -> string)
    requires p.status == Success && p.oldString == Some(fragment) && p.newString == Some(replacement)
    requires MatchAt(text, fragment, at) && forall q :: MatchAt(text, fragment, q) ==> q == at
    requires '$' !in replacement
    ensures ApplyProposal(text, p, stringify) == Applied(text[..at] + replacement + text[at + |fragment|..], SingleNote)
    ensures |ApplyProposal(text, p, stringify).text| == |text| + |replacement| - |fragment|
  {
    UniqueOccurrence(text, fragment, at);
  }

  /** A fragment that does not occur fails with the not-found message. */
  lemma SingleAbsent(text: string, fragment: string, p: AiResponse, stringify: Edit -> string)
    requires p.status == Success && p.oldString == Some(fragment) && p.newString.Some?
    requires !Contains(text, fragment)
    ensures ApplyProposal(text, p, stringify) == Failed(NotFoundMessage(fragment))
  {
    NoOccurrencesIffAbsent(text, fragment);
  }

  /** Two occurrences that do not overlap fail with the ambiguity message and the count. */
  lemma SingleAmbiguous(text: string, fragment: string, q1: nat, q2: nat, p: AiResponse, stringify: Edit -> string)
    requires p.status == Success && p.oldString == Some(fragment) && p.newString.Some?
    requires MatchAt(text, fragment, q1) && MatchAt(text, fragment, q2) && q1 + Step(fragment) <= q2
    ensures ApplyProposal(text, p, stringify) == Failed(AmbiguousMessage(fragment, |Occurrences(text, fragment)|))
    ensures |Occurrences(text, fragment)| >= 2
  {
    TwoOccurrences(text, fragment, q1, q2);
  }

  /** A `success` payload without two strings is rejected as malformed. */
  lemma SingleMalformed(text: string, p: AiResponse, stringify: Edit -> string)
    requires p.status == Success && (p.oldString.None? || p.newString.None?)
    ensures ApplyProposal(text, p, stringify) == Failed("提案の形式が無効です (success)。")
  {
  }

  /**
   * A multi edit is all or nothing: it fails exactly when some edit cannot
   * be applied together with the others, and the message then names every
   * problem found.
   */
  lemma MultiAllOrNothing(text: string, edits: seq<Edit>, p: AiResponse, stringify: Edit -> string)
    requires p.status == MultipleEdits && p.edits == Some(edits)
    ensures ApplyProposal(text, p, stringify).Failed? <==> !AllApplicable(text, edits)
    ensures ApplyProposal(text, p, stringify).Failed? ==>
              var problems := Validate(text, edits).problems;
              |problems| >= 1
              && ApplyProposal(text, p, stringify).message == MultiFailure(problems, stringify)
              && forall i :: 0 <= i < |problems| ==> Contains(ApplyProposal(text, p, stringify).message, ProblemText(problems[i], stringify))
  {
    ValidateClean(text, edits);
    var problems := Validate(text, edits).problems;
    if problems != [] {
      var texts := ProblemTexts(problems, stringify);
      var joined := Join(texts, "\n- ");
      JoinContainsParts(texts, "\n- ");
      forall i | 0 <= i < |problems| ensures Contains(MultiFailure(problems, stringify), ProblemText(problems[i], stringify)) {
        var k :| MatchAt(joined, texts[i], k);
        MatchInside("複数編集の検証エラー:\n- ", joined, "", texts[i], k);
        assert "複数編集の検証エラー:\n- " + joined + "" == MultiFailure(problems, stringify);
      }
    }
  }

  /** With every edit applicable, the loop accepts each edit at its location, in order. */
  lemma AcceptedLocations(text: string, edits: seq<Edit>)
    requires AllApplicable(text, edits)
    ensures Validate(text, edits).accepted == seq(|edits|, j requires 0 <= j < |edits| => LocationOf(text, edits[j]))
  {
    ValidateClean(text, edits);
  }

  /**
   * When every edit can be applied together, the result is the simultaneous
   * replacement of all located fragments, and the note counts every edit.
   */
  lemma MultiApplied(text: string, edits: seq<Edit>, p: AiResponse, stringify: Edit -> string)
    requires p.status == MultipleEdits && p.edits == Some(edits)
    requires AllApplicable(text, edits)
    ensures ApplyProposal(text, p, stringify) == Applied(ReplaceSimultaneously(text, Arranged(text, edits)), MultiNote(|edits|))
    ensures multiset(Arranged(text, edits)) == multiset(seq(|edits|, j requires 0 <= j < |edits| => LocationOf(text, edits[j])))
  {
    ValidateClean(text, edits);
    var acc := Validate(text, edits).accepted;
    SameElements(Arranged(text, edits), acc);
    AcceptedLocations(text, edits);
  }

  /** Full replacement installs the content verbatim; content equal to the text leaves it as it was. */
  lemma ReplaceAllVerbatim(text: string, content: string, p: AiResponse, stringify: Edit -> string)
    requires p.status == ReplaceAll && p.content == Some(content)
    ensures ApplyProposal(text, p, stringify) == Applied(content, ReplaceAllNote)
    ensures content == text ==> ApplyProposal(text, p, stringify).text == text
  {
  }

  /** Every failure carries a non-empty message, so the store never falls back to its default. */
  lemma FailureMessageNonEmpty(text: string, p: AiResponse, stringify: Edit -> string)
    requires ApplyProposal(text, p, stringify).Failed?
    ensures ApplyProposal(text, p, stringify).message != ""
  {
  }

  /**
   * The body of `applyEdit`'s `try` block: the search loop, the validation
   * loop and the splice loop, with each `throw` becoming `Failed`.
   */
  method ComputeApply(text: string, p: AiResponse, stringify: Edit -> string) returns (outcome: Outcome)
    ensures outcome == ApplyProposal(text, p, stringify)
  {
    match p.status {
      case Success =>
        if p.oldString.Some? && p.newString.Some? {
          var fragment := p.oldString.value;
          var indices := FindAll(text, fragment);
          var count := |indices|;
          if count == 1 {
            OccurrencesFromSound(text, fragment, 0);
            outcome := Applied(ReplaceAt(text, indices[0], |fragment|, p.newString.value), SingleNote);
          } else if count > 1 {
            outcome := Failed(AmbiguousMessage(fragment, count));
          } else {
            outcome := Failed(NotFoundMessage(fragment));
          }
        } else {
          outcome := Failed(InvalidShape(Success));
        }
      case MultipleEdits =>
        if p.edits.Some? {
          var edits := p.edits.value;
          var problems, validated := ValidateEdits(text, edits);
          if |problems| > 0 {
            outcome := Failed(MultiFailure(problems, stringify));
          } else {
            AcceptedSortable(text, edits);
            var sorted := SortByStartDescending(validated);
            SortedWithin(text, validated);
            var newText, appliedCount := SpliceAll(text, sorted);
            outcome := Applied(newText, MultiNote(appliedCount));
          }
        } else {
          outcome := Failed(InvalidShape(MultipleEdits));
        }
      case ReplaceAll =>
        if p.content.Some? {
          outcome := Applied(p.content.value, ReplaceAllNote);
        } else {
          outcome := Failed(InvalidShape(ReplaceAll));
        }
      case _ =>
        outcome := Unchanged;
    }
  }
}

=== FILE: handler.dfy ===
/**
 * The HTTP entry point `edit` (backend/functions/main.py): method checks,
 * body and parameter validation with aggregated messages, and the call to
 * the model gateway for a valid request.
 */
module Handler {
  import opened Wrappers
  import opened Strings
  import opened Json
  import opened Prompt
  import opened Reply

  datatype Body = NoBody | PlainText(text: string) | JsonBody(value: Json)

  datatype Response = Response(status: int, body: Body)

  /** The HTTP method and the body as `get_json(silent=True)` gives it (`None` when it is not JSON). */
  datatype Request = Request(httpMethod: string, body: Option<Json>)

  /** The arguments the handler passes to the gateway. */
  datatype Call = Call(
    currentFileContent: string,
    latestUserContent: string,
    history: seq<Json>,
    isFeedback: bool,
    previousProposal: Option<Json>)

  const ClientMissing := "バックエンド設定エラー: OpenAIクライアント未初期化"
  const BodyMissing := "リクエストボディがJSON形式でないか、空です。"
  const InternalError := "サーバー内部で予期せぬエラーが発生しました。"

  /** The Python type a required parameter must have. */
  datatype Expected = Str | List | Bool {
    /** `isinstance(v, expected_type)` */
    predicate Accepts(v: Json) {
      match this
      case Str => v.JString?
      case List => v.JArray?
      case Bool => v.JBool?
    }

    /** `expected_type.__name__` */
    function Name(): string {
      match this
      case Str => "str"
      case List => "list"
      case Bool => "bool"
    }
  }

  datatype Required = Required(key: string, expected: Expected)

  /** The required parameters, in the order they are checked and reported. */
  const RequiredKeys: seq<Required> := [
    Required("current_file_content", Str),
    Required("latest_user_content", Str),
    Required("history", List),
    Required("is_feedback", Bool)
  ]

  /** Python's `key in value`; `None` where Python raises `TypeError` (numbers, booleans). */
  function PyIn(key: string, v: Json): Option<bool> {
    match v
    case JObject(fields) => Some(key in fields)
    case JArray(items) => Some(JString(key) in items)
    case JString(s) => Some(Contains(s, key))
    case _ => None
  }

  /**
   * The keys of `required` that `body` lacks, in order, or `None` when
   * testing membership raises.
   */
  function MissingFrom(required: seq<Required>, body: Json): (r: Option<seq<string>>)
    ensures body.JObject? ==> r.Some?
    ensures body.JObject? ==> forall k :: k in r.value <==> k !in body.fields && exists q :: q in required && q.key == k
    ensures body.JObject? && (forall q :: q in required ==> q.key in body.fields) ==> r == Some([])
  {
    if required == [] then Some([])
    else
      match MissingFrom(required[..|required| - 1], body)
      case None => None
      case Some(init) =>
        var last := required[|required| - 1];
        assert forall q :: q in required <==> q in required[..|required| - 1] || q == last;
        match PyIn(last.key, body)
        case None => None
        case Some(present) => Some(if present then init else init + [last.key])
  }

  /** `missing_keys` */
  function MissingKeys(body: Json): Option<seq<string>> {
    MissingFrom(RequiredKeys, body)
  }

  function TypeMessage(r: Required, v: Json): string {
    "'" + r.key + "' は " + r.expected.Name() + " である必要があります (現在: " + TypeName(v) + ")"
  }

  function PreviousMessage(v: Json): string {
    "'previous_proposal' は dict または null である必要があります (現在: " + TypeName(v) + ")"
  }

  /** Every required key is present. */
  predicate HasAll(fields: map<string, Json>, required: seq<Required>) {
    forall i :: 0 <= i < |required| ==> required[i].key in fields
  }

  /** The messages for the keys of `required` whose values have the wrong type, in order. */
  function KeyTypeErrors(fields: map<string, Json>, required: seq<Required>): (errors: seq<string>)
    requires HasAll(fields, required)
    ensures errors == [] <==> forall i :: 0 <= i < |required| ==> required[i].expected.Accepts(fields[required[i].key])
    ensures |errors| <= |required|
  {
    if required == [] then []
    else
      var init := required[..|required| - 1];
      var last := required[|required| - 1];
      assert forall i :: 0 <= i < |init| ==> init[i] == required[i];
      var errors := KeyTypeErrors(fields, init);
      if last.expected.Accepts(fields[last.key]) then errors
      else errors + [TypeMessage(last, fields[last.key])]
  }

  /** Every wrongly typed key has its own message in the list. */
  lemma {:induction false} KeyTypeErrorsComplete(fields: map<string, Json>, required: seq<Required>, i: nat)
    requires HasAll(fields, required) && i < |required|
    requires !required[i].expected.Accepts(fields[required[i].key])
    ensures TypeMessage(required[i], fields[required[i].key]) in KeyTypeErrors(fields, required)
  {
    var init := required[..|required| - 1];
    if i < |init| {
      assert forall j :: 0 <= j < |init| ==> init[j] == required[j];
      KeyTypeErrorsComplete(fields, init, i);
    }
  }

  /** Every message in the list is the message of a wrongly typed key. */
  lemma {:induction false} KeyTypeErrorsSound(fields: map<string, Json>, required: seq<Required>, e: string)
    requires HasAll(fields, required) && e in KeyTypeErrors(fields, required)
    ensures exists i :: 0 <= i < |required| && !required[i].expected.Accepts(fields[required[i].key])
                        && e == TypeMessage(required[i], fields[required[i].key])
  {
    var init := required[..|required| - 1];
    assert forall j :: 0 <= j < |init| ==> init[j] == required[j];
    if e in KeyTypeErrors(fields, init) {
      KeyTypeErrorsSound(fields, init, e);
      var i :| 0 <= i < |init| && !init[i].expected.Accepts(fields[init[i].key])
               && e == TypeMessage(init[i], fields[init[i].key]);
      assert required[i] == init[i];
    } else {
      var k := |required| - 1;
      assert !required[k].expected.Accepts(fields[required[k].key]) && e == TypeMessage(required[k], fields[required[k].key]);
    }
  }

  /** `request_json.get("previous_proposal")`, with JSON `null` as Python `None`. */
  function Previous(fields: map<string, Json>): (r: Option<Json>)
    ensures r.Some? <==> "previous_proposal" in fields && fields["previous_proposal"] != JNull
    ensures r.Some? ==> r.value == fields["previous_proposal"]
  {
    if "previous_proposal" in fields && fields["previous_proposal"] != JNull then Some(fields["previous_proposal"])
    else None
  }

  /** With a truthy `is_feedback`, the previous proposal must be a dict or null. */
  predicate PreviousOk(fields: map<string, Json>)
    requires "is_feedback" in fields
  {
    !(Truthy(fields["is_feedback"]) && Previous(fields).Some? && !Previous(fields).value.JObject?)
  }

  /** All type errors of a body that has every required key. */
  function TypeErrors(fields: map<string, Json>): (errors: seq<string>)
    requires HasAll(fields, RequiredKeys)
    ensures errors == [] <==>
              (forall i :: 0 <= i < |RequiredKeys| ==> RequiredKeys[i].expected.Accepts(fields[RequiredKeys[i].key]))
              && PreviousOk(fields)
    ensures KeyTypeErrors(fields, RequiredKeys) <= errors
    ensures PreviousOk(fields) ==> |errors| == |KeyTypeErrors(fields, RequiredKeys)|
    ensures !PreviousOk(fields) ==>
              |errors| == |KeyTypeErrors(fields, RequiredKeys)| + 1 && errors[|errors| - 1] == PreviousMessage(fields["previous_proposal"])
  {
    assert RequiredKeys[3].key == "is_feedback" && RequiredKeys[3].key in fields;
    var errors := KeyTypeErrors(fields, RequiredKeys);
    if PreviousOk(fields) then errors else errors + [PreviousMessage(Previous(fields).value)]
  }

  /** A body that passes every check. */
  predicate Valid(fields: map<string, Json>) {
    HasAll(fields, RequiredKeys) && TypeErrors(fields) == []
  }

  /** The gateway arguments of a valid body. */
  function CallOf(fields: map<string, Json>): (c: Call)
    requires Valid(fields)
    ensures c.currentFileContent == fields["current_file_content"].s
    ensures c.latestUserContent == fields["latest_user_content"].s
    ensures c.isFeedback == fields["is_feedback"].b
    ensures c.history == fields["history"].items
    ensures c.previousProposal == Previous(fields)
  {
    assert RequiredKeys[0].key == "current_file_content" && RequiredKeys[0].expected.Accepts(fields["current_file_content"]);
    assert RequiredKeys[1].key == "latest_user_content" && RequiredKeys[1].expected.Accepts(fields["latest_user_content"]);
    assert RequiredKeys[2].key == "history" && RequiredKeys[2].expected.Accepts(fields["history"]);
    assert RequiredKeys[3].key == "is_feedback" && RequiredKeys[3].expected.Accepts(fields["is_feedback"]);
    Call(fields["current_file_content"].s, fields["latest_user_content"].s, fields["history"].items,
         fields["is_feedback"].b, Previous(fields))
  }

  function ErrorResponse(status: int, message: string): Response {
    Response(status, JsonBody(ErrorObject(message)))
  }

  function MissingMessage(missing: seq<string>): string {
    "必須パラメータが不足しています: " + Join(missing, ", ")
  }

  function TypeErrorMessage(errors: seq<string>): string {
    "リクエストパラメータの型が不正です: " + Join(errors, "; ")
  }

  /**
   * The response to `req`. `clientReady` says whether the model client was
   * initialised; `gateway` stands for `get_openai_response_api`, `None`
   * for an exception it raises.
   */
  function Handle(req: Request, clientReady: bool, gateway: Call -> Option<Json>): (r: Response)
    ensures r.status in {200, 204, 400, 405, 500}
  {
    if req.httpMethod == "OPTIONS" then Response(204, NoBody)
    else if req.httpMethod != "POST" then Response(405, PlainText("Method Not Allowed"))
    else if !clientReady then ErrorResponse(500, ClientMissing)
    else if req.body.None? || !Truthy(req.body.value) then ErrorResponse(400, BodyMissing)
    else
      var body := req.body.value;
      match MissingKeys(body)
      case None => ErrorResponse(500, InternalError)
      case Some(missing) =>
        if missing != [] then ErrorResponse(400, MissingMessage(missing))
        else if !body.JObject? then ErrorResponse(500, InternalError)
        else
          assert HasAll(body.fields, RequiredKeys) by {
            forall i | 0 <= i < |RequiredKeys| ensures RequiredKeys[i].key in body.fields {
              assert RequiredKeys[i].key !in missing;
              assert RequiredKeys[i] in RequiredKeys;
            }
          }
          var errors := TypeErrors(body.fields);
          if errors != [] then ErrorResponse(400, TypeErrorMessage(errors))
          else
            match gateway(CallOf(body.fields))
            case None => ErrorResponse(500, InternalError)
            case Some(reply) => Response(200, JsonBody(reply))
  }

  // ---- Properties of the handler.

  /** Pre-flight requests get 204, other methods but POST get 405. */
  lemma MethodChecks(req: Request, clientReady: bool, gateway: Call -> Option<Json>)
    ensures req.httpMethod == "OPTIONS" ==> Handle(req, clientReady, gateway) == Response(204, NoBody)
    ensures req.httpMethod != "OPTIONS" && req.httpMethod != "POST" ==> Handle(req, clientReady, gateway).status == 405
    ensures req.httpMethod == "POST" && !clientReady ==> Handle(req, clientReady, gateway) == ErrorResponse(500, ClientMissing)
  {
  }

  /** A missing, non-JSON or empty body is a 400. */
  lemma EmptyBody(req: Request, gateway: Call -> Option<Json>)
    requires req.httpMethod == "POST"
    requires req.body.None? || !Truthy(req.body.value)
    ensures Handle(req, true, gateway) == ErrorResponse(400, BodyMissing)
  {
  }

  /** A message made of a prefix and the joined parts mentions every part. */
  lemma MessageListsParts(prefix: string, parts: seq<string>, sep: string)
    ensures forall p :: p in parts ==> Contains(prefix + Join(parts, sep), p)
  {
    JoinContainsParts(parts, sep);
    forall p | p in parts ensures Contains(prefix + Join(parts, sep), p) {
      ContainsRight(prefix, Join(parts, sep), p);
    }
  }

  /**
   * A dict body lacking required keys is a 400 naming exactly the missing
   * keys, whatever the types of the others.
   */
  lemma MissingKeysReported(fields: map<string, Json>, gateway: Call -> Option<Json>)
    requires fields != map[]
    requires exists i :: 0 <= i < |RequiredKeys| && RequiredKeys[i].key !in fields
    ensures var missing := MissingKeys(JObject(fields)).value;
            && Handle(Request("POST", Some(JObject(fields))), true, gateway) == ErrorResponse(400, MissingMessage(missing))
            && (forall k :: k in missing <==> k !in fields && exists q :: q in RequiredKeys && q.key == k)
            && (forall k :: k in missing ==> Contains(MissingMessage(missing), k))
  {
    var missing := MissingKeys(JObject(fields)).value;
    assert missing != [] by {
      var i :| 0 <= i < |RequiredKeys| && RequiredKeys[i].key !in fields;
      assert RequiredKeys[i] in RequiredKeys;
      assert RequiredKeys[i].key in missing;
    }
    MessageListsParts("必須パラメータが不足しています: ", missing, ", ");
  }

  /**
   * A dict body with every key but some wrong type is a 400 listing every
   * type error; a body without type errors reaches the gateway.
   */
  lemma TypeErrorsReported(fields: map<string, Json>, gateway: Call -> Option<Json>)
    requires HasAll(fields, RequiredKeys)
    ensures MissingKeys(JObject(fields)) == Some([])
    ensures TypeErrors(fields) != [] ==>
              Handle(Request("POST", Some(JObject(fields))), true, gateway) == ErrorResponse(400, TypeErrorMessage(TypeErrors(fields)))
              && forall e :: e in TypeErrors(fields) ==> Contains(TypeErrorMessage(TypeErrors(fields)), e)
    ensures TypeErrors(fields) == [] ==>
              Handle(Request("POST", Some(JObject(fields))), true, gateway) ==
                match gateway(CallOf(fields))
                case None => ErrorResponse(500, InternalError)
                case Some(reply) => Response(200, JsonBody(reply))
  {
    assert RequiredKeys[0].key in fields;
    forall q | q in RequiredKeys ensures q.key in fields {
      var i :| 0 <= i < |RequiredKeys| && RequiredKeys[i] == q;
    }
    var errors := TypeErrors(fields);
    if errors != [] {
      MessageListsParts("リクエストパラメータの型が不正です: ", errors, "; ");
    }
  }

  /**
   * What the gateway receives satisfies what its prompt choice requires:
   * feedback with a truthy previous proposal always comes with a dict.
   */
  lemma ValidCallFitsPrompt(fields: map<string, Json>)
    requires Valid(fields)
    ensures IsFeedbackOn(CallOf(fields).isFeedback, CallOf(fields).previousProposal) ==>
              CallOf(fields).previousProposal.value.JObject?
  {
    assert RequiredKeys[3].key == "is_feedback" && RequiredKeys[3].expected.Accepts(fields["is_feedback"]);
  }

  /** Every history entry is a dict: `msg.get` raises on anything else. */
  predicate HistoryOk(history: seq<Json>) {
    forall i :: 0 <= i < |history| ==> history[i].JObject?
  }

  /**
   * The gateway the handler calls (`get_openai_response_api`), `None` for
   * an exception it raises. The history loop raises on an entry that is not
   * a dict, and the prompt choice on a truthy previous proposal that is not
   * one; otherwise the last user message is built from the chosen template,
   * `complete` stands for the model call on the request's history and that
   * message (its reply text, `None` when it sent none; the system prompt is
   * a constant and the re-encoding of the history entries happens inside it)
   * and the reply is interpreted.
   */
  function Respond(c: Call, show: Json -> string, complete: (seq<Json>, string) -> Option<string>,
                   parse: string -> Option<Json>): (r: Option<Json>)
    ensures r.None? <==>
              !HistoryOk(c.history) || (IsFeedbackOn(c.isFeedback, c.previousProposal) && !c.previousProposal.value.JObject?)
    ensures r.Some? ==> Acceptable(r.value)
  {
    if !HistoryOk(c.history) then None
    else if IsFeedbackOn(c.isFeedback, c.previousProposal) && !c.previousProposal.value.JObject? then None
    else
      var prompt := ChoosePrompt(c.currentFileContent, c.latestUserContent, c.isFeedback, c.previousProposal, show);
      Some(InterpretReply(complete(c.history, prompt.Text()), parse))
  }

  /**
   * End to end, a request that passes validation is answered with 200 and
   * a reply carrying a truthy `status` exactly when every history entry is
   * a dict; otherwise the history loop raises and the answer is 500. The
   * prompt always carries the user's message.
   */
  lemma ValidCallAnswered(fields: map<string, Json>, show: Json -> string,
                          complete: (seq<Json>, string) -> Option<string>, parse: string -> Option<Json>)
    requires Valid(fields)
    ensures var c := CallOf(fields);
            && (IsFeedbackOn(c.isFeedback, c.previousProposal) ==> c.previousProposal.value.JObject?)
            && Contains(ChoosePrompt(c.currentFileContent, c.latestUserContent, c.isFeedback, c.previousProposal, show).Text(),
                        c.latestUserContent)
            && (Respond(c, show, complete, parse).Some? <==> HistoryOk(c.history))
    ensures var c := CallOf(fields);
            var r := Handle(Request("POST", Some(JObject(fields))), true, (c': Call) => Respond(c', show, complete, parse));
            && (HistoryOk(c.history) ==> r.status == 200 && r.body.JsonBody? && Acceptable(r.body.value))
            && (!HistoryOk(c.history) ==> r == ErrorResponse(500, InternalError))
  {
    var c := CallOf(fields);
    ValidCallFitsPrompt(fields);
    ChosenCarriesMessage(c.currentFileContent, c.latestUserContent, c.isFeedback, c.previousProposal, show);
    TypeErrorsReported(fields, (c': Call) => Respond(c', show, complete, parse));
  }

  /**
   * The handler's imperative body: the `missing_keys` comprehension, the
   * `type_errors` loop over the required keys and the extra check on
   * `previous_proposal`.
   */
  method HandleEdit(req: Request, clientReady: bool, gateway: Call -> Option<Json>) returns (response: Response)
    ensures response == Handle(req, clientReady, gateway)
  {
    if req.httpMethod == "OPTIONS" {
      return Response(204, NoBody);
    }
    if req.httpMethod != "POST" {
      return Response(405, PlainText("Method Not Allowed"));
    }
    if !clientReady {
      return ErrorResponse(500, ClientMissing);
    }
    if req.body.None? || !Truthy(req.body.value) {
      return ErrorResponse(400, BodyMissing);
    }
    var requestJson := req.body.value;
    var missingKeys := MissingKeys(requestJson);
    if missingKeys.None? {
      return ErrorResponse(500, InternalError);
    }
    if missingKeys.value != [] {
      return ErrorResponse(400, MissingMessage(missingKeys.value));
    }
    if !requestJson.JObject? {
      return ErrorResponse(500, InternalError);
    }
    var fields := requestJson.fields;
    assert HasAll(fields, RequiredKeys) by {
      forall i | 0 <= i < |RequiredKeys| ensures RequiredKeys[i].key in fields {
        assert RequiredKeys[i].key !in missingKeys.value;
        assert RequiredKeys[i] in RequiredKeys;
      }
    }
    var typeErrors: seq<string> := [];
    for i := 0 to |RequiredKeys|
      invariant typeErrors == KeyTypeErrors(fields, RequiredKeys[..i])
    {
      var r := RequiredKeys[i];
      assert RequiredKeys[..i + 1][..i] == RequiredKeys[..i];
      if !r.expected.Accepts(fields[r.key]) {
        typeErrors := typeErrors + [TypeMessage(r, fields[r.key])];
      }
    }
    assert RequiredKeys[..|RequiredKeys|] == RequiredKeys;
    var isFeedback := fields["is_feedback"];
    var previousProposal := Previous(fields);
    if Truthy(isFeedback) && previousProposal.Some? && !previousProposal.value.JObject? {
      typeErrors := typeErrors + [PreviousMessage(previousProposal.value)];
    }
    if typeErrors != [] {
      return ErrorResponse(400, TypeErrorMessage(typeErrors));
    }
    var aiResponse := gateway(CallOf(fields));
    if aiResponse.None? {
      return ErrorResponse(500, InternalError);
    }
    response := Response(200, JsonBody(aiResponse.value));
  }
}

=== FILE: json.dfy ===
/**
 * JSON values as the back end (backend/functions/main.py) sees them after
 * `json.loads` or `get_json`: Python `None`, `bool`, `int`, `str`, `list`
 * and `dict`, with Python's truthiness and type names.
 */
module Json {
  import opened Wrappers
  import opened Strings

  datatype Json =
    | JNull
    | JBool(b: bool)
    | JNumber(n: int)
    | JString(s: string)
    | JArray(items: seq<Json>)
    | JObject(fields: map<string, Json>)

  /** Python truthiness: `None`, `False`, `0`, `""`, `[]` and `{}` are false. */
  predicate Truthy(v: Json) {
    match v
    case JNull => false
    case JBool(b) => b
    case JNumber(n) => n != 0
    case JString(s) => s != ""
    case JArray(items) => items != []
    case JObject(fields) => fields != map[]
  }

  /** `type(v).__name__` */
  function TypeName(v: Json): string {
    match v
    case JNull => "NoneType"
    case JBool(_) => "bool"
    case JNumber(_) => "int"
    case JString(_) => "str"
    case JArray(_) => "list"
    case JObject(_) => "dict"
  }

  /** `d.get(key)` on a dict: `None` when the key is absent. */
  function Get(fields: map<string, Json>, key: string): (r: Option<Json>)
    ensures r.Some? <==> key in fields
    ensures r.Some? ==> r.value == fields[key]
  {
    if key in fields then Some(fields[key]) else None
  }

  /** `d.get(key, default)` */
  function GetOr(fields: map<string, Json>, key: string, default: Json): (r: Json)
    ensures key in fields ==> r == fields[key]
    ensures key !in fields ==> r == default
  {
    if key in fields then fields[key] else default
  }

  /** A `{"status": "error", "message": ...}` reply. */
  function ErrorObject(message: string): (r: Json)
    ensures r.JObject? && "status" in r.fields && "message" in r.fields
    ensures r.fields["status"] == JString("error") && r.fields["message"] == JString(message)
  {
    JObject(map["status" := JString("error"), "message" := JString(message)])
  }
}

=== FILE: multiedit.dfy ===
/**
 * The multi-edit path of `applyEdit` (frontend/src/store/editorStore.ts):
 * every edit is located against one snapshot of the text, rejected when it
 * is malformed, missing, ambiguous or overlaps an edit already accepted,
 * and, when nothing was rejected, the accepted edits are spliced in order
 * of descending start offset.
 */
module MultiEdit {
  import opened Wrappers
  import opened Strings
  import opened Types
  import opened Search

  /** A validated edit: the pair and the range `[start, end)` of its unique match. */
  datatype Located = Located(oldString: string, newString: string, start: nat, end: nat)

  /** The index set `Array.from({length: end - start}, (_, i) => start + i)`. */
  function RangeSet(start: int, end: int): (r: set<int>)
    ensures forall k :: k in r <==> start <= k < end
    decreases end - start
  {
    if start >= end then {} else {start} + RangeSet(start + 1, end)
  }

  function Span(l: Located): set<int> {
    RangeSet(l.start, l.end)
  }

  /** The `overlappingIndices` set after the edits in `accepted` were accepted. */
  function Covered(accepted: seq<Located>): set<int>
  {
    if accepted == [] then {}
    else Covered(accepted[..|accepted| - 1]) + Span(accepted[|accepted| - 1])
  }

  /** A set misses the covered indices exactly when it misses every accepted span. */
  lemma {:induction false} CoveredDisjoint(accepted: seq<Located>, s: set<int>)
    ensures s * Covered(accepted) == {} <==> forall i :: 0 <= i < |accepted| ==> s !! Span(accepted[i])
  {
    if accepted != [] {
      var init := accepted[..|accepted| - 1];
      CoveredDisjoint(init, s);
      assert forall i :: 0 <= i < |init| ==> init[i] == accepted[i];
    }
  }

  /** What the validation loop records for one rejected edit. */
  datatype Problem =
    | Malformed(edit: Edit)
    | NotFound(oldString: string)
    | Ambiguous(oldString: string, count: nat)
    | Overlapping(oldString: string)

  datatype Verdict = Reject(problem: Problem) | Accept(located: Located)

  /** Both fields are strings and the old one is not empty. */
  predicate WellFormed(e: Edit) {
    e.oldString.Some? && e.newString.Some? && e.oldString.value != ""
  }

  /** One iteration of the validation loop, given the indices already covered. */
  function Judge(text: string, e: Edit, covered: set<int>): Verdict
  {
    if !WellFormed(e) then Reject(Malformed(e))
    else
      var fragment := e.oldString.value;
      var indices := Occurrences(text, fragment);
      if |indices| == 0 then Reject(NotFound(fragment))
      else if |indices| > 1 then Reject(Ambiguous(fragment, |indices|))
      else
        var l := Located(fragment, e.newString.value, indices[0], indices[0] + |fragment|);
        if Span(l) * covered != {} then Reject(Overlapping(fragment)) else Accept(l)
  }

  datatype Validation = Validation(problems: seq<Problem>, accepted: seq<Located>)

  /** The problems and the accepted edits after the loop has seen every edit, in order. */
  function Validate(text: string, edits: seq<Edit>): Validation
  {
    if edits == [] then Validation([], [])
    else
      var v := Validate(text, edits[..|edits| - 1]);
      match Judge(text, edits[|edits| - 1], Covered(v.accepted))
      case Reject(p) => Validation(v.problems + [p], v.accepted)
      case Accept(l) => Validation(v.problems, v.accepted + [l])
  }

  /** Every edit ends up either rejected with one problem or accepted, never both. */
  lemma {:induction false} ValidateCounts(text: string, edits: seq<Edit>)
    ensures |Validate(text, edits).problems| + |Validate(text, edits).accepted| == |edits|
  {
    if edits != [] {
      ValidateCounts(text, edits[..|edits| - 1]);
    }
  }

  // ---- The reference condition: every edit is located once and no two overlap.

  /** The edit is well formed and its old fragment is reported exactly once. */
  predicate Locatable(text: string, e: Edit) {
    WellFormed(e) && |Occurrences(text, e.oldString.value)| == 1
  }

  function LocationOf(text: string, e: Edit): (l: Located)
    requires Locatable(text, e)
    ensures l.start < l.end <= |text| && l.end == l.start + |l.oldString|
    ensures MatchAt(text, l.oldString, l.start)
  {
    var fragment := e.oldString.value;
    var p := Occurrences(text, fragment)[0];
    OccurrencesFromSound(text, fragment, 0);
    Located(fragment, e.newString.value, p, p + |fragment|)
  }

  /** The indices a locatable edit would replace (none for any other edit). */
  function SpanOf(text: string, e: Edit): set<int> {
    if Locatable(text, e) then Span(LocationOf(text, e)) else {}
  }

  /** All edits can be applied together: each is located once and no two ranges meet. */
  ghost predicate AllApplicable(text: string, edits: seq<Edit>) {
    && (forall j :: 0 <= j < |edits| ==> Locatable(text, edits[j]))
    && (forall i, j :: 0 <= i < j < |edits| ==> SpanOf(text, edits[i]) !! SpanOf(text, edits[j]))
  }

  /** Dropping the last edit keeps the condition. */
  lemma ApplicableInit(text: string, edits: seq<Edit>)
    requires edits != [] && AllApplicable(text, edits)
    ensures AllApplicable(text, edits[..|edits| - 1])
  {
    var init := edits[..|edits| - 1];
    assert forall j :: 0 <= j < |init| ==> init[j] == edits[j];
  }

  /** One more accepted edit, as the loop records it. */
  lemma ValidateStep(text: string, edits: seq<Edit>)
    requires edits != []
    ensures var v := Validate(text, edits[..|edits| - 1]);
            match Judge(text, edits[|edits| - 1], Covered(v.accepted))
            case Reject(p) => Validate(text, edits) == Validation(v.problems + [p], v.accepted)
            case Accept(l) => Validate(text, edits) == Validation(v.problems, v.accepted + [l])
  {
  }

  /** When all edits can be applied together, the loop accepts each of them at its location. */
  lemma {:induction false} ApplicableAccepted(text: string, edits: seq<Edit>)
    requires AllApplicable(text, edits)
    ensures Validate(text, edits).problems == []
    ensures |Validate(text, edits).accepted| == |edits|
    ensures forall j :: 0 <= j < |edits| ==> Validate(text, edits).accepted[j] == LocationOf(text, edits[j])
  {
    if edits != [] {
      var n := |edits|;
      var init := edits[..n - 1];
      var last := edits[n - 1];
      ApplicableInit(text, edits);
      ApplicableAccepted(text, init);
      var v := Validate(text, init);
      var l := LocationOf(text, last);
      assert Span(l) * Covered(v.accepted) == {} by {
        forall i | 0 <= i < |v.accepted| ensures Span(l) !! Span(v.accepted[i]) {
          assert init[i] == edits[i];
          assert SpanOf(text, edits[i]) !! SpanOf(text, edits[n - 1]);
        }
        CoveredDisjoint(v.accepted, Span(l));
      }
      assert Judge(text, last, Covered(v.accepted)) == Accept(l);
      ValidateStep(text, edits);
      assert Validate(text, edits) == Validation(v.problems, v.accepted + [l]);
      forall j | 0 <= j < n ensures Validate(text, edits).accepted[j] == LocationOf(text, edits[j]) {
        if j < n - 1 {
          assert init[j] == edits[j];
        }
      }
    }
  }

  /** A locatable edit apart from every earlier one extends the condition. */
  lemma ApplicableExtend(text: string, edits: seq<Edit>)
    requires edits != [] && AllApplicable(text, edits[..|edits| - 1]) && Locatable(text, edits[|edits| - 1])
    requires forall i :: 0 <= i < |edits| - 1 ==> SpanOf(text, edits[i]) !! SpanOf(text, edits[|edits| - 1])
    ensures AllApplicable(text, edits)
  {
    var init := edits[..|edits| - 1];
    assert forall j :: 0 <= j < |init| ==> init[j] == edits[j];
  }

  /** A last edit that raised no problem was accepted at its location, apart from the covered indices. */
  lemma CleanStep(text: string, edits: seq<Edit>)
    requires edits != [] && Validate(text, edits).problems == []
    ensures Validate(text, edits[..|edits| - 1]).problems == []
    ensures Locatable(text, edits[|edits| - 1])
    ensures Span(LocationOf(text, edits[|edits| - 1])) * Covered(Validate(text, edits[..|edits| - 1]).accepted) == {}
  {
    var v := Validate(text, edits[..|edits| - 1]);
    ValidateStep(text, edits);
    var verdict := Judge(text, edits[|edits| - 1], Covered(v.accepted));
    assert verdict.Accept?;
  }

  /** When the loop reports no problem, all edits can be applied together. */
  lemma {:induction false} CleanApplicable(text: string, edits: seq<Edit>)
    requires Validate(text, edits).problems == []
    ensures AllApplicable(text, edits)
  {
    if edits != [] {
      var n := |edits|;
      var init := edits[..n - 1];
      var last := edits[n - 1];
      CleanStep(text, edits);
      var v := Validate(text, init);
      CleanApplicable(text, init);
      ApplicableAccepted(text, init);
      var l := LocationOf(text, last);
      CoveredDisjoint(v.accepted, Span(l));
      forall i | 0 <= i < n - 1 ensures SpanOf(text, edits[i]) !! SpanOf(text, last) {
        assert init[i] == edits[i];
        assert Span(l) !! Span(v.accepted[i]);
      }
      ApplicableExtend(text, edits);
    }
  }

  /**
   * The validation loop reports no problem exactly when all edits can be
   * applied together, and then it has accepted every edit, in order, at
   * its unique location.
   */
  lemma ValidateClean(text: string, edits: seq<Edit>)
    ensures Validate(text, edits).problems == [] <==> AllApplicable(text, edits)
    ensures AllApplicable(text, edits) ==>
              |Validate(text, edits).accepted| == |edits|
              && forall j :: 0 <= j < |edits| ==>
                   Validate(text, edits).accepted[j] == LocationOf(text, edits[j])
  {
    if Validate(text, edits).problems == [] {
      CleanApplicable(text, edits);
    }
    if AllApplicable(text, edits) {
      ApplicableAccepted(text, edits);
    }
  }

  // ---- What the accepted edits satisfy, whatever else was rejected.

  /** `l` is the unique reported match of its old fragment in `text`. */
  predicate Fits(text: string, l: Located) {
    && l.start < l.end <= |text|
    && l.end == l.start + |l.oldString|
    && MatchAt(text, l.oldString, l.start)
    && Occurrences(text, l.oldString) == [l.start]
  }

  ghost predicate PairwiseDisjoint(accepted: seq<Located>) {
    forall i, j :: 0 <= i < j < |accepted| ==> Span(accepted[i]) !! Span(accepted[j])
  }

  /**
   * Every accepted edit sits at the unique match of its fragment, and the
   * accepted ranges are pairwise disjoint.
   */
  lemma {:induction false} ValidateAcceptedSound(text: string, edits: seq<Edit>)
    ensures forall a :: a in Validate(text, edits).accepted ==> Fits(text, a)
    ensures PairwiseDisjoint(Validate(text, edits).accepted)
  {
    if edits != [] {
      var init := edits[..|edits| - 1];
      ValidateAcceptedSound(text, init);
      var v := Validate(text, init);
      var verdict := Judge(text, edits[|edits| - 1], Covered(v.accepted));
      if verdict.Accept? {
        var l := verdict.located;
        OccurrencesFromSound(text, l.oldString, 0);
        CoveredDisjoint(v.accepted, Span(l));
        var acc := v.accepted + [l];
        forall i, j | 0 <= i < j < |acc| ensures Span(acc[i]) !! Span(acc[j]) {
          if j == |acc| - 1 {
            assert Span(l) !! Span(v.accepted[i]);
          } else {
            assert acc[i] == v.accepted[i] && acc[j] == v.accepted[j];
          }
        }
      }
    }
  }

  // ---- `validatedEdits.sort((a, b) => b.startIndex - a.startIndex)`

  predicate Apart(a: Located, b: Located) {
    a.end <= b.start || b.end <= a.start
  }

  /** Disjoint non-empty index ranges lie one entirely before the other. */
  lemma SpanDisjointApart(a: Located, b: Located)
    requires a.start < a.end && b.start < b.end
    requires Span(a) !! Span(b)
    ensures Apart(a, b)
  {
    var m := if a.start <= b.start then b.start else a.start;
    assert m !in Span(a) || m !in Span(b);
  }

  ghost predicate NonEmpty(d: seq<Located>) {
    forall l :: l in d ==> l.start < l.end
  }

  /** Start offsets strictly decrease, and each range ends before the previous one starts. */
  ghost predicate Descending(d: seq<Located>) {
    forall i, j :: 0 <= i < j < |d| ==> d[j].end <= d[i].start
  }

  /** A range ending before the highest range of `d` starts can go in front. */
  lemma PrependDescending(x: Located, d: seq<Located>)
    requires NonEmpty(d) && Descending(d) && d != []
    requires d[0].end <= x.start
    ensures Descending([x] + d)
  {
    var r := [x] + d;
    forall i, j | 0 <= i < j < |r| ensures r[j].end <= r[i].start {
      if i == 0 {
        assert r[j] == d[j - 1];
        if j > 1 {
          assert d[0] in d;
        }
      } else {
        assert r[i] == d[i - 1] && r[j] == d[j - 1];
      }
    }
  }

  /** The facts about the tail of `d` that inserting `x` behind its head relies on. */
  lemma InsertBehindFacts(x: Located, d: seq<Located>)
    requires x.start < x.end && NonEmpty(d) && Descending(d) && d != []
    requires forall y :: y in d ==> Apart(x, y)
    requires x.start <= d[0].start
    ensures x.end <= d[0].start
    ensures NonEmpty(d[1..]) && Descending(d[1..])
    ensures forall y :: y in d[1..] ==> Apart(x, y) && y.end <= d[0].start
  {
    assert d[0] in d;
    forall y | y in d[1..] ensures Apart(x, y) && y.end <= d[0].start {
      var i :| 0 <= i < |d[1..]| && d[1..][i] == y;
      assert d[i + 1] == y;
    }
    forall i, j | 0 <= i < j < |d[1..]| ensures d[1..][j].end <= d[1..][i].start {
      assert d[1..][i] == d[i + 1] && d[1..][j] == d[j + 1];
    }
  }

  /** Putting the old head back in front of the tail with `x` inserted. */
  lemma InsertBehind(x: Located, d: seq<Located>, rest: seq<Located>)
    requires d != [] && d[0].start < d[0].end && x.end <= d[0].start
    requires forall y :: y in d[1..] ==> y.end <= d[0].start
    requires multiset(rest) == multiset(d[1..]) + multiset{x}
    requires NonEmpty(rest) && Descending(rest)
    ensures multiset([d[0]] + rest) == multiset(d) + multiset{x}
    ensures NonEmpty([d[0]] + rest) && Descending([d[0]] + rest)
  {
    assert d == [d[0]] + d[1..];
    var r := [d[0]] + rest;
    forall i, j | 0 <= i < j < |r| ensures r[j].end <= r[i].start {
      assert r[j] == rest[j - 1];
      if i == 0 {
        assert rest[j - 1] in multiset(rest);
      } else {
        assert r[i] == rest[i - 1];
      }
    }
  }

  function Insert(x: Located, d: seq<Located>): (r: seq<Located>)
    requires x.start < x.end && NonEmpty(d) && Descending(d)
    requires forall y :: y in d ==> Apart(x, y)
    ensures multiset(r) == multiset(d) + multiset{x}
    ensures NonEmpty(r) && Descending(r)
  {
    if d == [] then [x]
    else if x.start > d[0].start then
      assert d[0] in d;
      assert Apart(x, d[0]) && d[0].start < d[0].end;
      PrependDescending(x, d);
      [x] + d
    else
      InsertBehindFacts(x, d);
      var rest := Insert(x, d[1..]);
      assert d[0] in d;
      InsertBehind(x, d, rest);
      [d[0]] + rest
  }

  ghost predicate PairwiseApart(accepted: seq<Located>) {
    forall i, j :: 0 <= i < j < |accepted| ==> Apart(accepted[i], accepted[j])
  }

  /** Every element of a sorted prefix lies apart from the edit that follows the prefix. */
  lemma ApartFromSorted(accepted: seq<Located>, sorted: seq<Located>)
    requires accepted != [] && PairwiseApart(accepted)
    requires multiset(sorted) == multiset(accepted[..|accepted| - 1])
    ensures forall y :: y in sorted ==> Apart(accepted[|accepted| - 1], y)
  {
    var init := accepted[..|accepted| - 1];
    forall y | y in sorted ensures Apart(accepted[|accepted| - 1], y) {
      assert y in multiset(sorted);
      assert y in init;
      var i :| 0 <= i < |init| && init[i] == y;
      assert accepted[i] == y;
    }
  }

  /** The accepted edits ordered by descending start offset. */
  function SortByStartDescending(accepted: seq<Located>): (r: seq<Located>)
    requires NonEmpty(accepted) && PairwiseApart(accepted)
    ensures multiset(r) == multiset(accepted)
    ensures Descending(r)
  {
    if accepted == [] then []
    else
      var init := accepted[..|accepted| - 1];
      var last := accepted[|accepted| - 1];
      assert accepted == init + [last];
      assert last in accepted;
      assert PairwiseApart(init);
      var sorted := SortByStartDescending(init);
      ApartFromSorted(accepted, sorted);
      Insert(last, sorted)
  }

  // ---- Splicing.

  /** Every range lies inside the text. */
  ghost predicate Within(text: string, d: seq<Located>) {
    forall i :: 0 <= i < |d| ==> d[i].start <= d[i].end <= |text|
  }

  /**
   * Replacing several disjoint ranges at once: the text before the highest
   * range is handled recursively, then that range's replacement, then the
   * untouched rest.
   */
  function ReplaceSimultaneously(text: string, d: seq<Located>): string
    requires Descending(d) && Within(text, d)
    decreases |d|
  {
    if d == [] then text
    else ReplaceSimultaneously(text[..d[0].start], d[1..]) + d[0].newString + text[d[0].end..]
  }

  /** Text after every range is untouched by the replacements. */
  lemma {:induction false} ReplaceAppend(p: string, q: string, d: seq<Located>)
    requires Descending(d) && Within(p, d)
    ensures Within(p + q, d)
    ensures ReplaceSimultaneously(p + q, d) == ReplaceSimultaneously(p, d) + q
    decreases |d|
  {
    if d != [] {
      assert (p + q)[..d[0].start] == p[..d[0].start];
      assert (p + q)[d[0].end..] == p[d[0].end..] + q;
      ReplaceAppend(p[..d[0].start], [], d[1..]);
      assert p[..d[0].start] + [] == p[..d[0].start];
    }
  }

  /** The sum over the ranges of how much each replacement changes the length. */
  function Growth(d: seq<Located>): int {
    if d == [] then 0 else |d[0].newString| - (d[0].end - d[0].start) + Growth(d[1..])
  }

  /** The length changes by the sum of the per-edit changes. */
  lemma {:induction false} ReplaceLength(text: string, d: seq<Located>)
    requires Descending(d) && Within(text, d)
    ensures |ReplaceSimultaneously(text, d)| == |text| + Growth(d)
    decreases |d|
  {
    if d != [] {
      ReplaceLength(text[..d[0].start], d[1..]);
    }
  }

  /** The ranges below the highest one lie inside the text before it. */
  lemma DescendingTail(text: string, d: seq<Located>)
    requires Descending(d) && Within(text, d) && d != []
    ensures Descending(d[1..]) && Within(text[..d[0].start], d[1..])
    ensures d[|d| - 1].start <= d[0].start
  {
    forall i | 0 <= i < |d| - 1 ensures d[1..][i].end <= d[0].start {
      assert d[1..][i] == d[i + 1];
    }
  }

  /** Text before the lowest range is kept as it was. */
  lemma {:induction false} ReplaceKeepsPrefix(text: string, d: seq<Located>)
    requires Descending(d) && Within(text, d) && d != []
    ensures var low := d[|d| - 1].start;
            low <= |ReplaceSimultaneously(text, d)|
            && ReplaceSimultaneously(text, d)[..low] == text[..low]
    decreases |d|
  {
    var low := d[|d| - 1].start;
    var before := text[..d[0].start];
    var after := d[0].newString + text[d[0].end..];
    DescendingTail(text, d);
    ReplaceUnfold(text, d);
    var rest := ReplaceSimultaneously(before, d[1..]);
    if |d| == 1 {
      assert rest == before;
    } else {
      ReplaceKeepsPrefix(before, d[1..]);
      assert d[1..][|d| - 2] == d[|d| - 1];
    }
    PrefixOfConcat(rest, after, low);
  }

  /** One step of the simultaneous replacement. */
  lemma ReplaceUnfold(text: string, d: seq<Located>)
    requires Descending(d) && Within(text, d) && d != []
    requires Descending(d[1..]) && Within(text[..d[0].start], d[1..])
    ensures ReplaceSimultaneously(text, d)
            == ReplaceSimultaneously(text[..d[0].start], d[1..]) + (d[0].newString + text[d[0].end..])
  {
  }

  /** Proof step: a prefix of a concatenation that ends inside its first part. */
  lemma PrefixOfConcat(a: string, b: string, n: nat)
    requires n <= |a|
    ensures (a + b)[..n] == a[..n]
  {
  }

  /**
   * The splice loop: `newText = newText.substring(0, ve.startIndex) +
   * ve.new_string + newText.substring(ve.endIndex)` for each edit, highest
   * first, counting the edits applied.
   */
  method SpliceAll(text: string, d: seq<Located>) returns (newText: string, appliedCount: nat)
    requires Descending(d) && Within(text, d)
    ensures newText == ReplaceSimultaneously(text, d)
    ensures appliedCount == |d|
  {
    newText := text;
    appliedCount := 0;
    for k := 0 to |d|
      invariant appliedCount == k
      invariant Within(newText, d[k..])
      invariant ReplaceSimultaneously(newText, d[k..]) == ReplaceSimultaneously(text, d)
    {
      var ve := d[k];
      var prefix := newText[..ve.start];
      var tail := ve.newString + newText[ve.end..];
      assert d[k..][1..] == d[k + 1..];
      assert Within(prefix, d[k + 1..]);
      ReplaceAppend(prefix, tail, d[k + 1..]);
      newText := prefix + tail;
      appliedCount := appliedCount + 1;
    }
  }

  /**
   * The validation loop: each edit is located against the same snapshot
   * `text` with the `exec` loop, and the indices of accepted edits are added
   * to `overlappingIndices`.
   */
  method ValidateEdits(text: string, edits: seq<Edit>) returns (problems: seq<Problem>, validated: seq<Located>)
    ensures Validation(problems, validated) == Validate(text, edits)
  {
    problems := [];
    validated := [];
    var overlappingIndices: set<int> := {};
    for i := 0 to |edits|
      invariant Validation(problems, validated) == Validate(text, edits[..i])
      invariant overlappingIndices == Covered(validated)
    {
      var edit := edits[i];
      assert edits[..i + 1][..i] == edits[..i];
      if edit.oldString.None? || edit.newString.None? || edit.oldString.value == "" {
        problems := problems + [Malformed(edit)];
        continue;
      }
      var fragment := edit.oldString.value;
      var indices := FindAll(text, fragment);
      if |indices| == 0 {
        problems := problems + [NotFound(fragment)];
      } else if |indices| > 1 {
        problems := problems + [Ambiguous(fragment, |indices|)];
      } else {
        var startIndex := indices[0];
        var endIndex := startIndex + |fragment|;
        var currentRange := RangeSet(startIndex, endIndex);
        if currentRange * overlappingIndices != {} {
          problems := problems + [Overlapping(fragment)];
        } else {
          var l := Located(fragment, edit.newString.value, startIndex, endIndex);
          assert (validated + [l])[..|validated|] == validated;
          validated := validated + [l];
          overlappingIndices := overlappingIndices + currentRange;
        }
      }
    }
    assert edits[..|edits|] == edits;
  }
}

=== FILE: prompt.dfy ===
/**
 * The choice of the last user message the back end sends to the model
 * (backend/functions/main.py, `get_openai_response_api`): feedback on a
 * previous proposal either revises that proposal's text or the current
 * file; anything else is a plain instruction.
 */
module Prompt {
  import opened Wrappers
  import opened Strings
  import opened Json

  /**
   * How an f-string renders a value (`None` for a missing key). Lists and
   * dicts are rendered by `show`, which stands for Python's `repr`.
   */
  function PyStr(v: Option<Json>, show: Json -> string): string {
    match v
    case None => "None"
    case Some(j) =>
      match j
      case JNull => "None"
      case JBool(b) => if b then "True" else "False"
      case JNumber(n) => IntToString(n)
      case JString(s) => s
      case _ => show(j)
  }

  /** The three templates of the last user message. */
  datatype Prompt =
    | RevisePrevious(editable: string, feedback: string, prevStatus: string)
    | ReviseCurrent(fileContent: string, prevStatus: string, feedback: string)
    | Instruct(fileContent: string, instruction: string)
  {
    function Text(): string {
      match this
      case RevisePrevious(editable, feedback, prevStatus) =>
        RevisePreviousHead + editable + RevisePreviousMid + feedback + RevisePreviousTail + prevStatus + ")\n"
      case ReviseCurrent(fileContent, prevStatus, feedback) =>
        FileHead + fileContent + ReviseCurrentMid + prevStatus + ReviseCurrentFeedback + feedback + ReviseCurrentTail
      case Instruct(fileContent, instruction) =>
        FileHead + fileContent + InstructMid + instruction + InstructTail
    }
  }

  // The fixed pieces of the three templates, around the values they embed.
  const RevisePreviousHead := "\n## 【前回の提案内容 (編集対象)】:\n---\n"
  const RevisePreviousMid := "\n---\n## 【上記提案に対するフィードバック】: "
  const RevisePreviousTail := "\n\n会話履歴（特に直前のassistantメッセージの提案JSON）と上記のフィードバックに基づき、**【前回の提案内容 (編集対象)】を修正**して、新しい提案をJSON形式で応答してください。(元の提案形式: "
  const FileHead := "\n## 【現在のファイル内容】:\n---\n"
  const ReviseCurrentMid := "\n---\n## 【前回の提案 (履歴参照)】: "
  const ReviseCurrentFeedback := " 提案 (詳細は会話履歴の直前のassistantメッセージを確認してください)\n## 【上記提案に対するフィードバック】: "
  const ReviseCurrentTail := "\n\n会話履歴（特に直前のAI提案JSON）と上記のフィードバックに基づき、**【現在のファイル内容】を編集**して、新しい提案をJSON形式で応答してください。\n"
  const InstructMid := "\n---\n## 【ユーザー指示】: "
  const InstructTail := "\n\n会話履歴も踏まえ、上記の指示に基づいて、JSON形式で応答してください。\n"

  /** The before/after block a `success` proposal is revised through. */
  function SuccessBlock(oldStr: string, newStr: string): string {
    "変更前:\n```\n" + oldStr + "\n```\n変更後:\n```\n" + newStr + "\n```"
  }

  /**
   * `editable_previous_content`: the `content` of a `replace_all`
   * proposal (whatever its type, `None` when missing), the before/after
   * block of a `success` proposal, `None` for any other status.
   */
  function EditablePrevious(proposal: map<string, Json>, show: Json -> string): Option<Json> {
    var status := Get(proposal, "status");
    if status == Some(JString("replace_all")) then Get(proposal, "content")
    else if status == Some(JString("success")) then
      var oldStr := PyStr(Some(GetOr(proposal, "old_string", JString(""))), show);
      var newStr := PyStr(Some(GetOr(proposal, "new_string", JString(""))), show);
      Some(JString(SuccessBlock(oldStr, newStr)))
    else None
  }

  /** Feedback on a proposal, as opposed to a plain instruction. */
  predicate IsFeedbackOn(isFeedback: bool, previousProposal: Option<Json>) {
    isFeedback && previousProposal.Some? && Truthy(previousProposal.value)
  }

  /**
   * The template used for the last user message. The caller guarantees
   * that a truthy previous proposal sent with feedback is a dict.
   */
  function ChoosePrompt(currentFileContent: string, latestUserContent: string, isFeedback: bool,
                        previousProposal: Option<Json>, show: Json -> string): (p: Prompt)
    requires IsFeedbackOn(isFeedback, previousProposal) ==> previousProposal.value.JObject?
    ensures p.Instruct? <==> !IsFeedbackOn(isFeedback, previousProposal)
    ensures p.Instruct? ==> p == Instruct(currentFileContent, latestUserContent)
  {
    if IsFeedbackOn(isFeedback, previousProposal) then
      var proposal := previousProposal.value.fields;
      var prevStatus := PyStr(Get(proposal, "status"), show);
      match EditablePrevious(proposal, show)
      case Some(JString(editable)) => RevisePrevious(editable, latestUserContent, prevStatus)
      case _ => ReviseCurrent(currentFileContent, prevStatus, latestUserContent)
    else Instruct(currentFileContent, latestUserContent)
  }

  /** Feedback on a `replace_all` proposal with string content revises that content. */
  lemma ReplaceAllRevisesContent(currentFileContent: string, latestUserContent: string,
                                 proposal: map<string, Json>, content: string, show: Json -> string)
    requires proposal != map[] && Get(proposal, "status") == Some(JString("replace_all"))
    requires Get(proposal, "content") == Some(JString(content))
    ensures ChoosePrompt(currentFileContent, latestUserContent, true, Some(JObject(proposal)), show)
            == RevisePrevious(content, latestUserContent, "replace_all")
    ensures Contains(ChoosePrompt(currentFileContent, latestUserContent, true, Some(JObject(proposal)), show).Text(), content)
  {
    var s := RevisePreviousHead + content + RevisePreviousMid;
    ContainsMiddle(RevisePreviousHead, content, RevisePreviousMid);
    ContainsLeft(s, latestUserContent, content);
    ContainsLeft(s + latestUserContent, RevisePreviousTail, content);
    ContainsLeft(s + latestUserContent + RevisePreviousTail, "replace_all", content);
    ContainsLeft(s + latestUserContent + RevisePreviousTail + "replace_all", ")\n", content);
  }

  /**
   * Feedback on a `success` proposal revises its before/after block; a
   * missing `old_string` or `new_string` shows as empty.
   */
  lemma SuccessRevisesPair(currentFileContent: string, latestUserContent: string,
                           proposal: map<string, Json>, show: Json -> string)
    requires proposal != map[] && Get(proposal, "status") == Some(JString("success"))
    ensures var oldStr := if "old_string" in proposal then PyStr(Some(proposal["old_string"]), show) else "";
            var newStr := if "new_string" in proposal then PyStr(Some(proposal["new_string"]), show) else "";
            ChoosePrompt(currentFileContent, latestUserContent, true, Some(JObject(proposal)), show)
            == RevisePrevious(SuccessBlock(oldStr, newStr), latestUserContent, "success")
  {
  }

  /**
   * Feedback on any other proposal (a `multiple_edits` one, or a
   * `replace_all` one without string content) revises the current file.
   */
  lemma OtherFeedbackRevisesFile(currentFileContent: string, latestUserContent: string,
                                 proposal: map<string, Json>, show: Json -> string)
    requires proposal != map[]
    requires Get(proposal, "status") != Some(JString("success"))
    requires Get(proposal, "status") == Some(JString("replace_all")) ==> !("content" in proposal && proposal["content"].JString?)
    ensures ChoosePrompt(currentFileContent, latestUserContent, true, Some(JObject(proposal)), show)
            == ReviseCurrent(currentFileContent, PyStr(Get(proposal, "status"), show), latestUserContent)
    ensures Contains(ChoosePrompt(currentFileContent, latestUserContent, true, Some(JObject(proposal)), show).Text(), currentFileContent)
  {
    var prevStatus := PyStr(Get(proposal, "status"), show);
    var s := FileHead + currentFileContent + ReviseCurrentMid;
    ContainsMiddle(FileHead, currentFileContent, ReviseCurrentMid);
    ContainsLeft(s, prevStatus, currentFileContent);
    ContainsLeft(s + prevStatus, ReviseCurrentFeedback, currentFileContent);
    ContainsLeft(s + prevStatus + ReviseCurrentFeedback, latestUserContent, currentFileContent);
    ContainsLeft(s + prevStatus + ReviseCurrentFeedback + latestUserContent, ReviseCurrentTail, currentFileContent);
  }

  /** Whatever the template, the user's latest message is part of it. */
  lemma PromptCarriesMessage(p: Prompt, message: string)
    requires p.RevisePrevious? ==> p.feedback == message
    requires p.ReviseCurrent? ==> p.feedback == message
    requires p.Instruct? ==> p.instruction == message
    ensures Contains(p.Text(), message)
  {
    match p
    case RevisePrevious(editable, feedback, prevStatus) =>
      var head := RevisePreviousHead + editable + RevisePreviousMid;
      ContainsMiddle(head, message, RevisePreviousTail);
      ContainsLeft(head + message + RevisePreviousTail, prevStatus, message);
      ContainsLeft(head + message + RevisePreviousTail + prevStatus, ")\n", message);
    case ReviseCurrent(fileContent, prevStatus, feedback) =>
      var head := FileHead + fileContent + ReviseCurrentMid + prevStatus + ReviseCurrentFeedback;
      ContainsMiddle(head, message, ReviseCurrentTail);
    case Instruct(fileContent, instruction) =>
      ContainsMiddle(FileHead + fileContent + InstructMid, message, InstructTail);
  }

  /** The chosen template always carries the latest user message. */
  lemma ChosenCarriesMessage(currentFileContent: string, latestUserContent: string, isFeedback: bool,
                             previousProposal: Option<Json>, show: Json -> string)
    requires IsFeedbackOn(isFeedback, previousProposal) ==> previousProposal.value.JObject?
    ensures Contains(ChoosePrompt(currentFileContent, latestUserContent, isFeedback, previousProposal, show).Text(), latestUserContent)
  {
    PromptCarriesMessage(ChoosePrompt(currentFileContent, latestUserContent, isFeedback, previousProposal, show), latestUserContent);
  }

  /** A plain instruction embeds the current file. */
  lemma InstructEmbedsFile(currentFileContent: string, latestUserContent: string, isFeedback: bool,
                           previousProposal: Option<Json>, show: Json -> string)
    requires !IsFeedbackOn(isFeedback, previousProposal)
    ensures Contains(ChoosePrompt(currentFileContent, latestUserContent, isFeedback, previousProposal, show).Text(), currentFileContent)
  {
    var s := FileHead + currentFileContent + InstructMid;
    ContainsMiddle(FileHead, currentFileContent, InstructMid);
    ContainsLeft(s, latestUserContent, currentFileContent);
    ContainsLeft(s + latestUserContent, InstructTail, currentFileContent);
  }
}

=== FILE: reply.dfy ===
/**
 * How the back end (backend/functions/main.py, `get_openai_response_api`)
 * turns the model's raw reply into the response dict: Markdown code fences
 * are stripped, the rest is parsed, and only a dict with a truthy `status`
 * is passed on unchanged.
 */
module Reply {
  import opened Wrappers
  import opened Strings
  import opened Json

  const Fence := "```"
  const JsonFence := "```json"

  /** Drops a closing fence, if there is one. */
  function DropClosingFence(s: string): (r: string)
    ensures EndsWith(s, Fence) ==> r + Fence == s
    ensures !EndsWith(s, Fence) ==> r == s
  {
    if EndsWith(s, Fence) then s[..|s| - 3] else s
  }

  /**
   * The fence stripper: strip, drop a leading "```json" or "```" together
   * with a closing "```", strip again.
   */
  function StripFences(raw: string): (r: string)
    ensures Trimmed(r, PySpace)
  {
    var p := Trim(raw, PySpace);
    var inner :=
      if StartsWith(p, JsonFence) then DropClosingFence(p[7..])
      else if StartsWith(p, Fence) then DropClosingFence(p[3..])
      else p;
    Trim(inner, PySpace)
  }

  /** The stripper as written, reassigning the processed text step by step. */
  method ProcessContent(raw: string) returns (processed: string)
    ensures processed == StripFences(raw)
  {
    processed := Trim(raw, PySpace);
    if StartsWith(processed, JsonFence) {
      processed := processed[7..];
      if EndsWith(processed, Fence) {
        processed := processed[..|processed| - 3];
      }
    } else if StartsWith(processed, Fence) {
      processed := processed[3..];
      if EndsWith(processed, Fence) {
        processed := processed[..|processed| - 3];
      }
    }
    processed := Trim(processed, PySpace);
  }

  /** A closing fence appended to `x` is dropped again. */
  lemma DropAppendedFence(x: string)
    ensures DropClosingFence(x + Fence) == x
  {
    assert EndsWith(x + Fence, Fence);
  }

  /**
   * Text opening with a fence and ending with one has nothing to strip, so
   * an unpadded fenced block meets the requires of the two lemmas below.
   */
  lemma FencedTrimmed(open: string, x: string)
    requires open == JsonFence || open == Fence
    ensures Trimmed(open + x + Fence, PySpace)
    ensures StartsWith(open + x + Fence, open) && (open + x + Fence)[|open|..] == x + Fence
    ensures Trim(open + x + Fence, PySpace) == open + x + Fence
  {
    var raw := open + x + Fence;
    assert raw == open + (x + Fence);
    assert raw[..|open|] == open && raw[|open|..] == x + Fence;
    assert raw[0] == '`' && raw[|raw| - 1] == '`';
    assert Trimmed(raw, PySpace);
    TrimOfTrimmed(raw, PySpace);
  }

  /**
   * A fenced block marked as JSON, with any whitespace around it, yields its
   * stripped contents.
   */
  lemma StripJsonFence(raw: string, x: string)
    requires Trim(raw, PySpace) == JsonFence + x + Fence
    ensures StripFences(raw) == Trim(x, PySpace)
  {
    var p := Trim(raw, PySpace);
    assert StartsWith(p, JsonFence) && p[7..] == x + Fence;
    DropAppendedFence(x);
  }

  /** A bare fence followed by anything but "json" is not a JSON fence. */
  lemma NotJsonFence(x: string)
    requires !StartsWith(x + Fence, "json")
    ensures !StartsWith(Fence + x + Fence, JsonFence)
  {
    var y := x + Fence;
    var raw := Fence + x + Fence;
    assert raw == Fence + y;
    if |raw| >= 7 {
      assert raw[..7][3..] == y[..4];
      assert JsonFence[3..] == "json";
    }
  }

  /**
   * A bare fenced block (its contents not starting with "json"), with any
   * whitespace around it, yields its stripped contents too.
   */
  lemma StripBareFence(raw: string, x: string)
    requires Trim(raw, PySpace) == Fence + x + Fence && !StartsWith(x + Fence, "json")
    ensures StripFences(raw) == Trim(x, PySpace)
  {
    var p := Trim(raw, PySpace);
    NotJsonFence(x);
    assert StartsWith(p, Fence) && p[3..] == x + Fence;
    DropAppendedFence(x);
  }

  /** Text without an opening fence has no opening JSON fence either. */
  lemma JsonFenceIsFence(s: string)
    ensures !StartsWith(s, Fence) ==> !StartsWith(s, JsonFence)
  {
    if |s| >= 7 {
      assert s[..3] == s[..7][..3];
      assert JsonFence[..3] == Fence;
    }
  }

  /**
   * Text that does not start with a fence once stripped is only stripped;
   * in particular a closing fence without an opening one stays.
   */
  lemma StripUnfenced(raw: string)
    requires !StartsWith(Trim(raw, PySpace), Fence)
    ensures StripFences(raw) == Trim(raw, PySpace)
  {
    var p := Trim(raw, PySpace);
    JsonFenceIsFence(p);
    TrimOfTrimmed(p, PySpace);
  }

  /** Stripping an already stripped, unfenced text changes nothing. */
  lemma StripIdempotent(raw: string)
    requires !StartsWith(StripFences(raw), Fence)
    ensures StripFences(StripFences(raw)) == StripFences(raw)
  {
    var r := StripFences(raw);
    TrimOfTrimmed(r, PySpace);
    StripUnfenced(r);
  }

  const EmptyReplyMessage := "AIからの応答が空です。"

  /** The message for a reply that parsed but is not a dict with a truthy status. */
  function MalformedMessage(processed: string): string {
    "AIからの応答を解析できませんでした:\n```\n" + processed + "\n```"
  }

  /** The message for a reply that did not parse. */
  function UndecodableMessage(processed: string): string {
    "AIからの応答を解析できませんでした(JSONDecodeError):\n```\n" + processed + "\n```"
  }

  /** A parse result the back end passes on as it is. */
  predicate Acceptable(v: Json) {
    v.JObject? && "status" in v.fields && Truthy(v.fields["status"])
  }

  /** A `{"status": "conversation", "message": ...}` reply. */
  function Conversation(message: string): (r: Json)
    ensures Acceptable(r) && "message" in r.fields
    ensures r.fields["status"] == JString("conversation") && r.fields["message"] == JString(message)
  {
    var r := JObject(map["status" := JString("conversation"), "message" := JString(message)]);
    assert "conversation"[0] == 'c';
    r
  }

  /**
   * The response dict built from the reply text `content` (`None` when the
   * model sent none). `parse` stands for `json.loads`, `None` for a
   * `JSONDecodeError`. The result always carries a truthy `status`.
   */
  function InterpretReply(content: Option<string>, parse: string -> Option<Json>): (r: Json)
    ensures Acceptable(r)
  {
    if content.None? || content.value == "" then
      var r := ErrorObject(EmptyReplyMessage);
      assert "error"[0] == 'e';
      r
    else
      var processed := StripFences(content.value);
      match parse(processed)
      case None => Conversation(UndecodableMessage(processed))
      case Some(v) => if Acceptable(v) then v else Conversation(MalformedMessage(processed))
  }

  /** A dict with a truthy status comes back exactly as parsed. */
  lemma AcceptedAsParsed(content: string, parse: string -> Option<Json>, v: Json)
    requires content != "" && parse(StripFences(content)) == Some(v) && Acceptable(v)
    ensures InterpretReply(Some(content), parse) == v
  {
  }

  /**
   * Anything else that was sent becomes a `conversation` reply whose message
   * shows the processed text.
   */
  lemma RejectedBecomesConversation(content: string, parse: string -> Option<Json>)
    requires content != ""
    requires parse(StripFences(content)).None? || !Acceptable(parse(StripFences(content)).value)
    ensures var r := InterpretReply(Some(content), parse);
            r.fields["status"] == JString("conversation")
            && r.fields["message"].JString?
            && Contains(r.fields["message"].s, StripFences(content))
  {
    var processed := StripFences(content);
    if parse(processed).None? {
      ContainsMiddle("AIからの応答を解析できませんでした(JSONDecodeError):\n```\n", processed, "\n```");
    } else {
      ContainsMiddle("AIからの応答を解析できませんでした:\n```\n", processed, "\n```");
    }
  }

  /** No reply text at all is an error. */
  lemma EmptyIsError(content: Option<string>, parse: string -> Option<Json>)
    requires content.None? || content.value == ""
    ensures InterpretReply(content, parse) == ErrorObject(EmptyReplyMessage)
  {
  }
}

=== FILE: search.dfy ===
/**
 * Literal fragment search as the store performs it
 * (frontend/src/store/editorStore.ts): the fragment is escaped with
 * `escapeRegExp`, turned into a global regular expression and matched
 * repeatedly, each search resuming at `lastIndex`.
 */
module Search {
  import opened Wrappers
  import opened Strings

  /** How far `lastIndex` moves past a match: the match length, or one for an empty match. */
  function Step(frag: string): (n: nat)
    ensures n >= 1 && n >= |frag|
  {
    if |frag| == 0 then 1 else |frag|
  }

  /** One `regex.exec` from `from`: the first offset at or after `from` where `frag` occurs. */
  function FirstMatchFrom(text: string, frag: string, from: nat): (r: Option<nat>)
    ensures r.Some? ==> from <= r.value && MatchAt(text, frag, r.value)
    decreases |text| + 1 - from
  {
    if from + |frag| > |text| then None
    else if text[from..from + |frag|] == frag then Some(from)
    else FirstMatchFrom(text, frag, from + 1)
  }

  /** The match found is the first one at or after `from`; none is found only when there is none. */
  lemma {:induction false} FirstMatchFromIsFirst(text: string, frag: string, from: nat)
    ensures FirstMatchFrom(text, frag, from).Some? ==>
              forall q :: from <= q < FirstMatchFrom(text, frag, from).value ==> !MatchAt(text, frag, q)
    ensures FirstMatchFrom(text, frag, from).None? ==> forall q :: from <= q ==> !MatchAt(text, frag, q)
    decreases |text| + 1 - from
  {
    if from + |frag| <= |text| && text[from..from + |frag|] != frag {
      FirstMatchFromIsFirst(text, frag, from + 1);
    }
  }

  /** The offsets of all matches found from `from` on, each search resuming past the previous match. */
  function OccurrencesFrom(text: string, frag: string, from: nat): seq<nat>
    decreases |text| + 1 - from
  {
    match FirstMatchFrom(text, frag, from)
    case None => []
    case Some(p) => [p] + OccurrencesFrom(text, frag, p + Step(frag))
  }

  /**
   * The offsets a global literal search reports in `text`, left to right.
   * Its length is `text.match(regex).length` (or 0 when `match` gives null).
   */
  function Occurrences(text: string, frag: string): seq<nat> {
    OccurrencesFrom(text, frag, 0)
  }

  /** Every offset in `occ` is an occurrence of `frag` at or after `from`. */
  ghost predicate AllMatch(text: string, frag: string, from: nat, occ: seq<nat>) {
    forall k :: 0 <= k < |occ| ==> from <= occ[k] && MatchAt(text, frag, occ[k])
  }

  /** Each offset lies at least `step` past the previous one. */
  ghost predicate Spaced(occ: seq<nat>, step: nat) {
    forall k :: 0 < k < |occ| ==> occ[k - 1] + step <= occ[k]
  }

  /**
   * Every reported offset is a real occurrence at or after `from`, and each
   * one starts no earlier than one step past the previous one: the reported
   * matches never overlap.
   */
  lemma {:induction false} OccurrencesFromSound(text: string, frag: string, from: nat)
    ensures AllMatch(text, frag, from, OccurrencesFrom(text, frag, from))
    ensures Spaced(OccurrencesFrom(text, frag, from), Step(frag))
    decreases |text| + 1 - from
  {
    match FirstMatchFrom(text, frag, from)
    case None =>
    case Some(p) =>
      OccurrencesFromSound(text, frag, p + Step(frag));
      var rest := OccurrencesFrom(text, frag, p + Step(frag));
      var occ := OccurrencesFrom(text, frag, from);
      assert occ == [p] + rest;
      forall k | 0 < k < |occ|
        ensures from <= occ[k] && MatchAt(text, frag, occ[k])
        ensures occ[k - 1] + Step(frag) <= occ[k]
      {
        assert occ[k] == rest[k - 1];
      }
  }

  /** Some offset of `occ` lies at or before `q`, less than `step` away. */
  ghost predicate Covers(occ: seq<nat>, step: nat, q: int) {
    exists k :: 0 <= k < |occ| && occ[k] <= q < occ[k] + step
  }

  /**
   * Nothing is skipped: every occurrence at or after `from` lies within the
   * step of some reported match (for an empty fragment, is one).
   */
  lemma {:induction false} OccurrencesFromComplete(text: string, frag: string, from: nat, q: int)
    requires from <= q && MatchAt(text, frag, q)
    ensures Covers(OccurrencesFrom(text, frag, from), Step(frag), q)
    decreases |text| + 1 - from
  {
    FirstMatchFromIsFirst(text, frag, from);
    match FirstMatchFrom(text, frag, from)
    case None =>
    case Some(p) =>
      var rest := OccurrencesFrom(text, frag, p + Step(frag));
      var occ := OccurrencesFrom(text, frag, from);
      assert occ == [p] + rest;
      if q < p + Step(frag) {
        assert 0 < |occ| && occ[0] <= q < occ[0] + Step(frag);
        assert Covers(occ, Step(frag), q);
      } else {
        OccurrencesFromComplete(text, frag, p + Step(frag), q);
        var k :| 0 <= k < |rest| && rest[k] <= q < rest[k] + Step(frag);
        assert occ[k + 1] == rest[k];
      }
  }

  /** The search reports nothing exactly when the fragment does not occur at all. */
  lemma NoOccurrencesIffAbsent(text: string, frag: string)
    ensures Occurrences(text, frag) == [] <==> !Contains(text, frag)
  {
    if Occurrences(text, frag) == [] {
      FirstMatchFromIsFirst(text, frag, 0);
      assert FirstMatchFrom(text, frag, 0).None?;
    } else {
      OccurrencesFromSound(text, frag, 0);
      assert MatchAt(text, frag, Occurrences(text, frag)[0]);
    }
  }

  /** A fragment that occurs at exactly one offset is reported exactly once, there. */
  lemma UniqueOccurrence(text: string, frag: string, p: nat)
    requires MatchAt(text, frag, p)
    requires forall q :: MatchAt(text, frag, q) ==> q == p
    ensures Occurrences(text, frag) == [p]
  {
    FirstMatchFromIsFirst(text, frag, 0);
    assert FirstMatchFrom(text, frag, 0) == Some(p);
    FirstMatchFromIsFirst(text, frag, p + Step(frag));
    assert FirstMatchFrom(text, frag, p + Step(frag)).None?;
    assert OccurrencesFrom(text, frag, p + Step(frag)) == [];
    assert OccurrencesFrom(text, frag, 0) == [p] + OccurrencesFrom(text, frag, p + Step(frag));
  }

  /**
   * A single report means one real occurrence with nothing outside its
   * step: any other occurrence overlaps the reported one.
   */
  lemma SingleOccurrence(text: string, frag: string)
    requires |Occurrences(text, frag)| == 1
    ensures var p := Occurrences(text, frag)[0];
            MatchAt(text, frag, p)
            && forall q :: MatchAt(text, frag, q) ==> p <= q < p + Step(frag)
  {
    OccurrencesFromSound(text, frag, 0);
    forall q | MatchAt(text, frag, q)
      ensures Occurrences(text, frag)[0] <= q < Occurrences(text, frag)[0] + Step(frag)
    {
      OccurrencesFromComplete(text, frag, 0, q);
    }
  }

  /** Two non-overlapping occurrences are reported as at least two matches. */
  lemma TwoOccurrences(text: string, frag: string, q1: nat, q2: nat)
    requires MatchAt(text, frag, q1) && MatchAt(text, frag, q2)
    requires q1 + Step(frag) <= q2
    ensures |Occurrences(text, frag)| >= 2
  {
    var occ := Occurrences(text, frag);
    OccurrencesFromComplete(text, frag, 0, q1);
    OccurrencesFromSound(text, frag, 0);
    if |occ| == 1 {
      OccurrencesFromComplete(text, frag, 0, q2);
    }
  }

  /** An empty fragment matches at every offset, `|text| + 1` times. */
  lemma {:induction false} EmptyFragmentFrom(text: string, from: nat)
    requires from <= |text| + 1
    ensures |OccurrencesFrom(text, "", from)| == |text| + 1 - from
    decreases |text| + 1 - from
  {
    if from <= |text| {
      assert MatchAt(text, "", from);
      EmptyFragmentFrom(text, from + 1);
    }
  }

  lemma EmptyFragment(text: string)
    ensures |Occurrences(text, "")| == |text| + 1
  {
    EmptyFragmentFrom(text, 0);
  }

  /** Proof step: regrouping a concatenation around one element. */
  lemma AppendShift(a: seq<nat>, x: nat, b: seq<nat>)
    ensures a + ([x] + b) == (a + [x]) + b
  {
  }

  /** A search that finds `p` resumes past `from`, and at most one past the end of `text`. */
  lemma ResumeBounds(text: string, frag: string, from: nat, p: nat)
    requires FirstMatchFrom(text, frag, from) == Some(p)
    ensures from < p + Step(frag) <= |text| + 1
  {
    assert from <= p && p + |frag| <= |text|;
  }

  /** A search that finds `p` reports it and resumes one step past it. */
  lemma OccurrencesFromStep(text: string, frag: string, from: nat, p: nat)
    requires FirstMatchFrom(text, frag, from) == Some(p)
    ensures OccurrencesFrom(text, frag, from) == [p] + OccurrencesFrom(text, frag, p + Step(frag))
  {
  }

  /**
   * The `while ((match = regex.exec(text)) !== null)` loop of the multi-edit
   * path: collect each match index, moving `lastIndex` past an empty match.
   */
  method FindAll(text: string, frag: string) returns (indices: seq<nat>)
    ensures indices == Occurrences(text, frag)
  {
    indices := [];
    var lastIndex: nat := 0;
    while true
      invariant indices + OccurrencesFrom(text, frag, lastIndex) == Occurrences(text, frag)
      decreases |text| + 1 - lastIndex
    {
      var found := FirstMatchFrom(text, frag, lastIndex);
      if found.None? {
        assert OccurrencesFrom(text, frag, lastIndex) == [];
        return;
      }
      var index := found.value;
      var next := index + |frag|;
      if index == next {
        next := next + 1;
      }
      ResumeBounds(text, frag, lastIndex, index);
      OccurrencesFromStep(text, frag, lastIndex, index);
      AppendShift(indices, index, OccurrencesFrom(text, frag, next));
      indices := indices + [index];
      lastIndex := next;
    }
  }

  /** The characters `escapeRegExp` prefixes with a backslash. */
  predicate IsRegexSyntax(c: char) {
    c in {'.', '*', '+', '?', '^', '$', '{', '}', '(', ')', '|', '[', ']', '\\'}
  }

  /** `escapeRegExp`: a backslash before every pattern metacharacter. */
  function EscapeRegExp(s: string): (r: string)
    ensures |r| >= |s|
  {
    if s == [] then ""
    else (if IsRegexSyntax(s[0]) then ['\\', s[0]] else [s[0]]) + EscapeRegExp(s[1..])
  }

  /**
   * The text a pattern made only of literal atoms matches: an ordinary
   * character stands for itself and a backslash-escaped metacharacter for
   * that character. `None` when the pattern holds anything else (a bare
   * metacharacter, an escape of an ordinary character, a trailing backslash).
   */
  function LiteralText(pattern: string): Option<string>
  {
    if pattern == [] then Some("")
    else if pattern[0] == '\\' then
      if |pattern| >= 2 && IsRegexSyntax(pattern[1]) then
        match LiteralText(pattern[2..])
        case None => None
        case Some(rest) => Some([pattern[1]] + rest)
      else None
    else if IsRegexSyntax(pattern[0]) then None
    else
      match LiteralText(pattern[1..])
      case None => None
      case Some(rest) => Some([pattern[0]] + rest)
  }

  /** The escaped fragment is a purely literal pattern for exactly that fragment. */
  lemma {:induction false} EscapedIsLiteral(s: string)
    ensures LiteralText(EscapeRegExp(s)) == Some(s)
  {
    if s != [] {
      EscapedIsLiteral(s[1..]);
      var e := EscapeRegExp(s);
      if IsRegexSyntax(s[0]) {
        assert e[2..] == EscapeRegExp(s[1..]);
      } else {
        assert e[1..] == EscapeRegExp(s[1..]);
      }
      assert [s[0]] + s[1..] == s;
    }
  }
}

=== FILE: store.dfy ===
/**
 * The editor session store (frontend/src/store/editorStore.ts): the loaded
 * file, the working text, the conversation history, the loading flag, the
 * error banner and the proposal waiting to be applied or rejected. Every
 * action mutates these fields in place.
 */
module Store {
  import opened Wrappers
  import opened Strings
  import opened Types
  import opened Apply

  const LoadingText := "考え中..."
  const ApplyErrorPrefix := "適用エラー:"
  const ResponseErrorDefault := "AIからの応答でエラーが発生しました。"
  const SendErrorDefault := "メッセージの送信中にエラーが発生しました。"
  const ApplyErrorDefault := "編集の適用中にエラーが発生しました。"

  /** An error entry recorded by a failed apply. */
  predicate IsApplyError(m: ConversationMessage) {
    m.kind == Error && m.content.Text? && StartsWith(m.content.text, ApplyErrorPrefix)
  }

  /** `history.findIndex(isApplyError)`: the first apply-error entry, or -1. */
  function FirstApplyError(h: seq<ConversationMessage>): (r: int)
    ensures -1 <= r < |h|
    ensures r == -1 <==> forall i :: 0 <= i < |h| ==> !IsApplyError(h[i])
    ensures r >= 0 ==> IsApplyError(h[r]) && forall i :: 0 <= i < r ==> !IsApplyError(h[i])
  {
    if h == [] then -1
    else if IsApplyError(h[0]) then 0
    else
      var r := FirstApplyError(h[1..]);
      assert forall i :: 1 <= i < |h| ==> h[i] == h[1..][i - 1];
      if r == -1 then -1 else r + 1
  }

  /** How many apply-error entries the history holds. */
  function ApplyErrorCount(h: seq<ConversationMessage>): nat {
    if h == [] then 0 else (if IsApplyError(h[0]) then 1 else 0) + ApplyErrorCount(h[1..])
  }

  lemma {:induction false} ApplyErrorCountAppend(a: seq<ConversationMessage>, b: seq<ConversationMessage>)
    ensures ApplyErrorCount(a + b) == ApplyErrorCount(a) + ApplyErrorCount(b)
  {
    if a != [] {
      assert (a + b)[0] == a[0] && (a + b)[1..] == a[1..] + b;
      ApplyErrorCountAppend(a[1..], b);
    } else {
      assert a + b == b;
    }
  }

  /** No apply-error entry means a count of zero. */
  lemma {:induction false} NoApplyErrorCount(h: seq<ConversationMessage>)
    requires FirstApplyError(h) == -1
    ensures ApplyErrorCount(h) == 0
  {
    if h != [] {
      assert forall i :: 0 <= i < |h| - 1 ==> h[1..][i] == h[i + 1];
      NoApplyErrorCount(h[1..]);
    }
  }

  /** An apply-error entry somewhere means a count of at least one. */
  lemma {:induction false} SomeApplyErrorCount(h: seq<ConversationMessage>)
    requires FirstApplyError(h) != -1
    ensures ApplyErrorCount(h) >= 1
  {
    if !IsApplyError(h[0]) {
      assert FirstApplyError(h[1..]) != -1;
      SomeApplyErrorCount(h[1..]);
    }
  }

  /** `history.filter(msg => msg.type !== Loading)` */
  function RemoveLoading(h: seq<ConversationMessage>): (r: seq<ConversationMessage>)
    ensures |r| <= |h|
    ensures forall m :: m in r <==> m in h && m.kind != Loading
  {
    if h == [] then []
    else
      assert forall m :: m in h <==> m == h[0] || m in h[1..];
      (if h[0].kind == Loading then [] else [h[0]]) + RemoveLoading(h[1..])
  }

  /** The filter works entry by entry: it distributes over concatenation ... */
  lemma {:induction false} RemoveLoadingAppend(a: seq<ConversationMessage>, b: seq<ConversationMessage>)
    ensures RemoveLoading(a + b) == RemoveLoading(a) + RemoveLoading(b)
  {
    if a != [] {
      assert (a + b)[0] == a[0] && (a + b)[1..] == a[1..] + b;
      RemoveLoadingAppend(a[1..], b);
    } else {
      assert a + b == b;
    }
  }

  /** ... and keeps exactly the single entries that are not loading entries. */
  lemma RemoveLoadingOne(m: ConversationMessage)
    ensures RemoveLoading([m]) == if m.kind == Loading then [] else [m]
  {
    assert [m][1..] == [];
  }

  /** Dropping loading entries keeps every apply-error entry. */
  lemma {:induction false} RemoveLoadingCount(h: seq<ConversationMessage>)
    ensures ApplyErrorCount(RemoveLoading(h)) == ApplyErrorCount(h)
  {
    if h != [] {
      RemoveLoadingCount(h[1..]);
      var head := if h[0].kind == Loading then [] else [h[0]];
      ApplyErrorCountAppend(head, RemoveLoading(h[1..]));
    }
  }

  /** Replacing the loading entries by one new entry adds at most that entry's apply error. */
  lemma SettleCount(h: seq<ConversationMessage>, entry: ConversationMessage)
    ensures ApplyErrorCount(RemoveLoading(h) + [entry]) == ApplyErrorCount(h) + (if IsApplyError(entry) then 1 else 0)
  {
    RemoveLoadingCount(h);
    ApplyErrorCountAppend(RemoveLoading(h), [entry]);
    assert [entry][1..] == [];
  }

  /** A send-failure note is not mistaken for an apply error. */
  lemma SendNoteNotApplyError(message: string)
    ensures !StartsWith("エラー: " + message, ApplyErrorPrefix)
  {
    assert ("エラー: " + message)[0] != ApplyErrorPrefix[0];
  }

  /** The entries the back end sees: neither loading placeholders nor system notes. */
  predicate SentToApi(m: ConversationMessage) {
    m.kind != Loading && m.kind != SystemInfo
  }

  /** The content as sent: text as it is, a reply object through `stringify` (`JSON.stringify` of the reduced record). */
  function ApiContent(c: MessageContent, stringify: AiResponse -> string): string {
    match c
    case Text(t) => t
    case Reply(response) => stringify(response)
  }

  /** The filter and map that build `apiHistory`. */
  function ApiHistory(h: seq<ConversationMessage>, stringify: AiResponse -> string): (r: seq<ApiMessage>)
    ensures |r| <= |h|
  {
    if h == [] then []
    else (if SentToApi(h[0]) then [ApiMessage(h[0].role, ApiContent(h[0].content, stringify))] else []) + ApiHistory(h[1..], stringify)
  }

  lemma {:induction false} ApiHistoryAppend(a: seq<ConversationMessage>, b: seq<ConversationMessage>, stringify: AiResponse -> string)
    ensures ApiHistory(a + b, stringify) == ApiHistory(a, stringify) + ApiHistory(b, stringify)
  {
    if a != [] {
      assert (a + b)[0] == a[0] && (a + b)[1..] == a[1..] + b;
      ApiHistoryAppend(a[1..], b, stringify);
    } else {
      assert a + b == b;
    }
  }

  /** `apiHistory.slice(0, -1)`, and the empty list for an empty one. */
  function DropLast<T>(s: seq<T>): (r: seq<T>)
    ensures s != [] ==> r + [s[|s| - 1]] == s
    ensures s == [] ==> r == []
  {
    if s == [] then [] else s[..|s| - 1]
  }

  /**
   * The history sent with a message is the history as it was before the
   * send, without loading and system entries: the new user entry is dropped
   * again and the new loading entry never appears.
   */
  lemma ApiHistoryOmitsTurn(h: seq<ConversationMessage>, user: ConversationMessage, loading: ConversationMessage,
                            stringify: AiResponse -> string)
    requires user.kind == Normal && loading.kind == Loading
    ensures DropLast(ApiHistory(h + [user, loading], stringify)) == ApiHistory(h, stringify)
  {
    ApiHistoryAppend(h, [user, loading], stringify);
    assert [user, loading][1..] == [loading];
    assert ApiHistory([user, loading], stringify) == [ApiMessage(user.role, ApiContent(user.content, stringify))];
  }

  /** A user entry and a loading entry add no apply-error entry. */
  lemma NewTurnCount(h: seq<ConversationMessage>, user: ConversationMessage, loading: ConversationMessage)
    requires user.kind == Normal && loading.kind == Loading
    ensures ApplyErrorCount(h + [user, loading]) == ApplyErrorCount(h)
  {
    ApplyErrorCountAppend(h, [user, loading]);
    assert [user, loading][1..] == [loading] && [loading][1..] == [];
    assert ApplyErrorCount([loading]) == 0;
  }

  /** The history entry type a reply is shown with. */
  function ReplyKind(status: AiStatus): (k: MessageType)
    ensures k == Proposal <==> status.IsProposal()
    ensures k == Error <==> status == Failure
    ensures k == Normal <==> !status.IsProposal() && status != Failure
  {
    if status.IsProposal() then Proposal
    else if status == Failure then Error
    else Normal
  }

  /** `response.message || default` */
  function ReplyError(response: AiResponse): (msg: string)
    ensures msg != ""
    ensures response.message.Some? && response.message.value != "" ==> msg == response.message.value
  {
    if response.message.Some? && response.message.value != "" then response.message.value
    else ResponseErrorDefault
  }

  /** `err.message || default` for a failed request. */
  function SendError(errMessage: string): (msg: string)
    ensures msg != "" && (errMessage != "" ==> msg == errMessage)
  {
    if errMessage != "" then errMessage else SendErrorDefault
  }

  function RejectNote(status: AiStatus): string {
    "提案 (" + status.Name() + ") を拒否しました。"
  }

  class EditorStore {
    var fileContent: string
    var currentText: string
    var history: seq<ConversationMessage>
    var isLoading: bool
    var error: Option<string>
    var lastProposal: Option<AiResponse>

    /**
     * A failed apply is reported in the history at most once: this is the
     * deduplication `applyEdit` performs, and after a failed apply the
     * history holds exactly one such entry.
     */
    ghost predicate Valid()
      reads this
    {
      ApplyErrorCount(history) <= 1
    }

    constructor()
      ensures fileContent == "" && currentText == "" && history == []
      ensures !isLoading && error.None? && lastProposal.None?
      ensures Valid()
    {
      fileContent := "";
      currentText := "";
      history := [];
      isLoading := false;
      error := None;
      lastProposal := None;
    }

    /** Loading a file resets the session to that file. */
    method SetFileContent(content: string)
      modifies this
      ensures fileContent == content && currentText == content
      ensures history == [] && lastProposal.None? && error.None?
      ensures isLoading == old(isLoading)
      ensures Valid()
    {
      fileContent := content;
      currentText := content;
      history := [];
      lastProposal := None;
      error := None;
    }

    method ClearError()
      requires Valid()
      modifies this
      ensures error.None?
      ensures fileContent == old(fileContent) && currentText == old(currentText) && history == old(history)
      ensures isLoading == old(isLoading) && lastProposal == old(lastProposal)
      ensures Valid()
    {
      error := None;
    }

    /** Marks a proposal as the one the next feedback message refers to. */
    method StartFeedback(proposal: AiResponse)
      requires Valid()
      modifies this
      ensures lastProposal == Some(proposal)
      ensures fileContent == old(fileContent) && currentText == old(currentText) && history == old(history)
      ensures isLoading == old(isLoading) && error == old(error)
      ensures Valid()
    {
      lastProposal := Some(proposal);
    }

    /**
     * The part of `sendMessage` before the request: a blank message does
     * nothing; otherwise the user entry and a loading entry are added and
     * the request to send is built. `userId` and `loadingId` are the fresh
     * ids of the two entries; `stringify` stands for `JSON.stringify`.
     */
    method SendBegin(message: string, isFeedback: bool, userId: string, loadingId: string, stringify: AiResponse -> string)
      returns (request: Option<ApiRequest>)
      requires Valid()
      modifies this
      ensures Valid()
      ensures Trim(message, JsSpace) == "" ==>
                request.None?
                && fileContent == old(fileContent) && currentText == old(currentText) && history == old(history)
                && isLoading == old(isLoading) && error == old(error) && lastProposal == old(lastProposal)
      ensures Trim(message, JsSpace) != "" ==>
                var content := Trim(message, JsSpace);
                var proposalForFeedback := if isFeedback then old(lastProposal) else None;
                && history == old(history) + [ConversationMessage(userId, User, Text(content), Normal),
                                              ConversationMessage(loadingId, Assistant, Text(LoadingText), Loading)]
                && isLoading && error.None?
                && lastProposal == proposalForFeedback
                && fileContent == old(fileContent) && currentText == old(currentText)
                && request == Some(ApiRequest(old(currentText), content, ApiHistory(old(history), stringify), isFeedback, proposalForFeedback))
    {
      var userMessageContent := Trim(message, JsSpace);
      if userMessageContent == "" {
        return None;
      }
      var currentUserMessage := ConversationMessage(userId, User, Text(userMessageContent), Normal);
      var loading := ConversationMessage(loadingId, Assistant, Text(LoadingText), Loading);
      NewTurnCount(history, currentUserMessage, loading);
      ApiHistoryOmitsTurn(history, currentUserMessage, loading, stringify);
      history := history + [currentUserMessage, loading];
      assert ApplyErrorCount(history) <= 1;
      isLoading := true;
      error := None;
      var proposalForFeedback := if isFeedback then lastProposal else None;
      if !isFeedback {
        lastProposal := None;
      }
      var apiHistory := ApiHistory(history, stringify);
      var historyForApi := DropLast(apiHistory);
      assert historyForApi == ApiHistory(old(history), stringify);
      request := Some(ApiRequest(currentText, userMessageContent, historyForApi, isFeedback, proposalForFeedback));
    }

    /**
     * The part of `sendMessage` after a reply arrived: loading entries go,
     * the reply is recorded, and the pending proposal and the error follow
     * its status. An unrecognised status changes neither.
     */
    method SendComplete(response: AiResponse, responseId: string)
      requires Valid()
      modifies this
      ensures Valid()
      ensures history == RemoveLoading(old(history)) + [ConversationMessage(responseId, Assistant, Reply(response), ReplyKind(response.status))]
      ensures !isLoading
      ensures response.status.IsProposal() ==> lastProposal == Some(response) && error == old(error)
      ensures response.status == Failure ==> lastProposal.None? && error == Some(ReplyError(response))
      ensures response.status in {ClarificationNeeded, Conversation, Rejected} ==> lastProposal.None? && error == old(error)
      ensures response.status.Unrecognised? ==> lastProposal == old(lastProposal) && error == old(error)
      ensures fileContent == old(fileContent) && currentText == old(currentText)
    {
      var entry := ConversationMessage(responseId, Assistant, Reply(response), Normal);
      if response.status.IsProposal() {
        entry := entry.(kind := Proposal);
        lastProposal := Some(response);
      } else if response.status == Failure {
        entry := entry.(kind := Error);
        error := Some(ReplyError(response));
        lastProposal := None;
      } else if response.status in {ClarificationNeeded, Conversation, Rejected} {
        lastProposal := None;
      }
      assert !IsApplyError(entry);
      SettleCount(history, entry);
      assert ApplyErrorCount(RemoveLoading(history) + [entry]) <= 1;
      history := RemoveLoading(history) + [entry];
      isLoading := false;
    }

    /** The part of `sendMessage` after the request failed with `errMessage`. */
    method SendFailed(errMessage: string, entryId: string)
      requires Valid()
      modifies this
      ensures Valid()
      ensures history == RemoveLoading(old(history)) + [ConversationMessage(entryId, System, Text("エラー: " + SendError(errMessage)), Error)]
      ensures !isLoading && error == Some(SendError(errMessage)) && lastProposal.None?
      ensures fileContent == old(fileContent) && currentText == old(currentText)
    {
      var errorMessage := if errMessage != "" then errMessage else SendErrorDefault;
      var entry := ConversationMessage(entryId, System, Text("エラー: " + errorMessage), Error);
      SendNoteNotApplyError(errorMessage);
      assert !IsApplyError(entry);
      SettleCount(history, entry);
      assert ApplyErrorCount(RemoveLoading(history) + [entry]) <= 1;
      history := RemoveLoading(history) + [entry];
      isLoading := false;
      error := Some(errorMessage);
      lastProposal := None;
    }

    /**
     * Applies the pending proposal. On success the new text is committed,
     * the proposal and the error are cleared and one note is added; on
     * failure the text and the proposal stay, the error is set and an
     * apply-error entry is added unless one is already there. `entryId` is
     * the fresh id of a new entry; `stringify` stands for `JSON.stringify`.
     */
    method ApplyEdit(entryId: string, stringify: Edit -> string)
      requires Valid()
      modifies this
      ensures Valid()
      ensures fileContent == old(fileContent) && isLoading == old(isLoading)
      ensures old(lastProposal).None? ==>
                currentText == old(currentText) && history == old(history)
                && error == old(error) && lastProposal == old(lastProposal)
      ensures old(lastProposal).Some? ==>
                match Apply.ApplyProposal(old(currentText), old(lastProposal).value, stringify)
                case Unchanged =>
                  currentText == old(currentText) && history == old(history)
                  && error == old(error) && lastProposal == old(lastProposal)
                case Applied(text, note) =>
                  currentText == text && lastProposal.None? && error.None?
                  && history == old(history) + [ConversationMessage(entryId, System, Text(note), SystemInfo)]
                case Failed(message) =>
                  currentText == old(currentText) && lastProposal == old(lastProposal)
                  && error == Some(message)
                  && ApplyErrorCount(history) == 1
                  && history == if FirstApplyError(old(history)) == -1
                                then old(history) + [ConversationMessage(entryId, System, Text("適用エラー: " + message), Error)]
                                else old(history)
    {
      if lastProposal.None? {
        return;
      }
      var proposal := lastProposal.value;
      var outcome := ComputeApply(currentText, proposal, stringify);
      match outcome {
        case Unchanged =>
        case Applied(newText, appliedMessage) =>
          var entry := ConversationMessage(entryId, System, Text(appliedMessage), SystemInfo);
          ApplyErrorCountAppend(history, [entry]);
          assert ApplyErrorCount([entry]) == 0;
          currentText := newText;
          lastProposal := None;
          error := None;
          history := history + [entry];
        case Failed(message) =>
          FailureMessageNonEmpty(currentText, proposal, stringify);
          var errorMessage := if message != "" then message else ApplyErrorDefault;
          error := Some(errorMessage);
          var existingErrorIndex := FirstApplyError(history);
          if existingErrorIndex == -1 {
            var entry := ConversationMessage(entryId, System, Text("適用エラー: " + errorMessage), Error);
            NoApplyErrorCount(history);
            ApplyErrorCountAppend(history, [entry]);
            history := history + [entry];
          } else {
            SomeApplyErrorCount(history);
          }
      }
    }

    /** Discards the pending proposal with a note naming its status. */
    method RejectEdit(entryId: string)
      requires Valid()
      modifies this
      ensures Valid()
      ensures fileContent == old(fileContent) && currentText == old(currentText) && isLoading == old(isLoading)
      ensures old(lastProposal).None? ==> history == old(history) && error == old(error) && lastProposal.None?
      ensures old(lastProposal).Some? ==>
                lastProposal.None? && error.None?
                && history == old(history) + [ConversationMessage(entryId, System, Text(RejectNote(old(lastProposal).value.status)), SystemInfo)]
    {
      if lastProposal.None? {
        return;
      }
      var entry := ConversationMessage(entryId, System, Text(RejectNote(lastProposal.value.status)), SystemInfo);
      ApplyErrorCountAppend(history, [entry]);
      lastProposal := None;
      error := None;
      history := history + [entry];
    }
  }
}

=== FILE: strings.dfy ===
/**
 * String helpers shared by both halves of the system: whitespace trimming
 * (JavaScript's `String.prototype.trim` and Python's `str.strip` differ in
 * what counts as whitespace), prefixes, decimal rendering and joining.
 */
module Strings {

  /** Whitespace and line terminators as `String.prototype.trim` removes them. */
  const JsSpace: set<char> :=
    {'\t', '\n', '\U{B}', '\U{C}', '\r', ' ', '\U{A0}', '\U{1680}',
     '\U{2000}', '\U{2001}', '\U{2002}', '\U{2003}', '\U{2004}', '\U{2005}',
     '\U{2006}', '\U{2007}', '\U{2008}', '\U{2009}', '\U{200A}',
     '\U{2028}', '\U{2029}', '\U{202F}', '\U{205F}', '\U{3000}', '\U{FEFF}'}

  /** Characters for which Python's `str.isspace` holds, as `str.strip()` removes them. */
  const PySpace: set<char> :=
    {'\t', '\n', '\U{B}', '\U{C}', '\r', '\U{1C}', '\U{1D}', '\U{1E}', '\U{1F}', ' ',
     '\U{85}', '\U{A0}', '\U{1680}',
     '\U{2000}', '\U{2001}', '\U{2002}', '\U{2003}', '\U{2004}', '\U{2005}',
     '\U{2006}', '\U{2007}', '\U{2008}', '\U{2009}', '\U{200A}',
     '\U{2028}', '\U{2029}', '\U{202F}', '\U{205F}', '\U{3000}'}

  predicate AllSpace(s: string, ws: set<char>) {
    forall i :: 0 <= i < |s| ==> s[i] in ws
  }

  /** No whitespace at either end. */
  predicate Trimmed(s: string, ws: set<char>) {
    s == [] || (s[0] !in ws && s[|s| - 1] !in ws)
  }

  function TrimStart(s: string, ws: set<char>): (r: string)
    ensures |r| <= |s| && r == s[|s| - |r|..]
    ensures AllSpace(s[..|s| - |r|], ws)
    ensures r == [] || r[0] !in ws
  {
    if s == [] || s[0] !in ws then s
    else
      var r := TrimStart(s[1..], ws);
      assert s[1..][..|s| - 1 - |r|] == s[1..|s| - |r|];
      r
  }

  function TrimEnd(s: string, ws: set<char>): (r: string)
    ensures |r| <= |s| && r == s[..|r|]
    ensures AllSpace(s[|r|..], ws)
    ensures r == [] || r[|r| - 1] !in ws
  {
    if s == [] || s[|s| - 1] !in ws then s
    else
      var r := TrimEnd(s[..|s| - 1], ws);
      assert s[..|s| - 1][|r|..] + [s[|s| - 1]] == s[|r|..];
      r
  }

  /** Both ends trimmed. */
  function Trim(s: string, ws: set<char>): (r: string)
    ensures Trimmed(r, ws) && |r| <= |s|
  {
    TrimEnd(TrimStart(s, ws), ws)
  }

  /**
   * Trimming removes whitespace and nothing else: the result is the slice
   * of the input between a whitespace-only head and a whitespace-only tail.
   */
  lemma TrimDropsSpace(s: string, ws: set<char>)
    ensures var r := Trim(s, ws);
            exists a: nat :: a + |r| <= |s| && r == s[a..a + |r|] && AllSpace(s[..a], ws) && AllSpace(s[a + |r|..], ws)
  {
    var t := TrimStart(s, ws);
    var r := Trim(s, ws);
    assert r == TrimEnd(t, ws);
    InnerSlice(s, t, r, ws);
  }

  /** A whitespace-free middle cut out of a suffix cut out of `s` is a slice of `s`. */
  lemma InnerSlice(s: string, t: string, r: string, ws: set<char>)
    requires |t| <= |s| && t == s[|s| - |t|..] && AllSpace(s[..|s| - |t|], ws)
    requires |r| <= |t| && r == t[..|r|] && AllSpace(t[|r|..], ws)
    ensures exists a: nat :: a + |r| <= |s| && r == s[a..a + |r|] && AllSpace(s[..a], ws) && AllSpace(s[a + |r|..], ws)
  {
    var a := |s| - |t|;
    assert r == s[a..a + |r|];
    assert s[a + |r|..] == t[|r|..];
  }

  /** Trimming leaves nothing exactly when the whole string is whitespace. */
  lemma {:induction false} TrimEmptyIffAllSpace(s: string, ws: set<char>)
    ensures Trim(s, ws) == [] <==> AllSpace(s, ws)
  {
    var t := TrimStart(s, ws);
    if t == [] {
      assert s[..|s|] == s;
    } else {
      assert s[|s| - |t|] !in ws;
    }
  }

  /** A string with no whitespace at either end is its own trim. */
  lemma {:induction false} TrimOfTrimmed(s: string, ws: set<char>)
    requires Trimmed(s, ws)
    ensures Trim(s, ws) == s
  {
  }

  predicate StartsWith(s: string, prefix: string) {
    |prefix| <= |s| && s[..|prefix|] == prefix
  }

  predicate EndsWith(s: string, suffix: string) {
    |suffix| <= |s| && s[|s| - |suffix|..] == suffix
  }

  /** `frag` occurs in `text` at offset `i`. */
  predicate MatchAt(text: string, frag: string, i: int) {
    0 <= i && i + |frag| <= |text| && text[i..i + |frag|] == frag
  }

  /** `frag` occurs somewhere inside `text` (Python's `frag in text` on two strings). */
  predicate Contains(text: string, frag: string) {
    exists i :: 0 <= i <= |text| - |frag| && MatchAt(text, frag, i)
  }

  /** Whatever is placed between two strings is contained in the result. */
  lemma ContainsMiddle(a: string, m: string, b: string)
    ensures Contains(a + m + b, m)
  {
    assert (a + m + b)[|a|..|a| + |m|] == m;
    assert MatchAt(a + m + b, m, |a|);
  }

  /** A fragment of `s` is a fragment of any text `s` starts. */
  lemma ContainsLeft(s: string, t: string, frag: string)
    requires Contains(s, frag)
    ensures Contains(s + t, frag)
  {
    var i :| 0 <= i <= |s| - |frag| && MatchAt(s, frag, i);
    assert (s + t)[i..i + |frag|] == s[i..i + |frag|];
    assert MatchAt(s + t, frag, i);
  }

  /** A fragment of `t` is a fragment of any text `t` ends. */
  lemma ContainsRight(s: string, t: string, frag: string)
    requires Contains(t, frag)
    ensures Contains(s + t, frag)
  {
    var i :| 0 <= i <= |t| - |frag| && MatchAt(t, frag, i);
    assert (s + t)[|s| + i..|s| + i + |frag|] == t[i..i + |frag|];
    assert MatchAt(s + t, frag, |s| + i);
  }

  /** `s.substring(0, n)`: at most the first `n` characters. */
  function Head(s: string, n: nat): (r: string)
    ensures |r| <= n && StartsWith(s, r)
    ensures |s| <= n ==> r == s
    ensures |s| > n ==> |r| == n
  {
    if |s| <= n then s else s[..n]
  }

  function DigitChar(d: nat): char
    requires d < 10
  {
    "0123456789"[d]
  }

  /** Decimal rendering of a natural number, as template literals produce it. */
  function NatToString(n: nat): (r: string)
    ensures |r| >= 1
    ensures forall i :: 0 <= i < |r| ==> '0' <= r[i] <= '9'
    decreases n
  {
    if n < 10 then [DigitChar(n)] else NatToString(n / 10) + [DigitChar(n % 10)]
  }

  /** Decimal rendering of an integer, with a leading minus sign when negative. */
  function IntToString(n: int): string {
    if n < 0 then "-" + NatToString(-n) else NatToString(n)
  }

  /** `parts.join(sep)` */
  function Join(parts: seq<string>, sep: string): (r: string)
    ensures parts == [] ==> r == ""
    ensures |parts| == 1 ==> r == parts[0]
  {
    if parts == [] then ""
    else if |parts| == 1 then parts[0]
    else parts[0] + sep + Join(parts[1..], sep)
  }

  /** A match survives having text added on either side. */
  lemma MatchInside(a: string, m: string, b: string, frag: string, i: int)
    requires MatchAt(m, frag, i)
    ensures MatchAt(a + m + b, frag, |a| + i)
  {
    assert (a + m + b)[|a| + i..|a| + i + |frag|] == m[i..i + |frag|];
  }

  /** Every part appears in the joined string. */
  lemma {:induction false} JoinContainsParts(parts: seq<string>, sep: string)
    ensures forall i :: 0 <= i < |parts| ==> Contains(Join(parts, sep), parts[i])
  {
    if |parts| == 1 {
      ContainsMiddle("", parts[0], "");
      assert "" + parts[0] + "" == parts[0];
    } else if |parts| > 1 {
      JoinContainsParts(parts[1..], sep);
      var rest := Join(parts[1..], sep);
      forall i | 0 <= i < |parts| ensures Contains(Join(parts, sep), parts[i]) {
        if i == 0 {
          ContainsMiddle("", parts[0], sep + rest);
          assert "" + parts[0] + (sep + rest) == Join(parts, sep);
        } else {
          assert parts[i] == parts[1..][i - 1];
          var k :| MatchAt(rest, parts[i], k);
          MatchInside(parts[0] + sep, rest, "", parts[i], k);
          assert parts[0] + sep + rest + "" == Join(parts, sep);
        }
      }
    }
  }
}

=== FILE: substitution.dfy ===
/**
 * The single-edit path replaces with `text.replace(regex, new_string)`,
 * where `new_string` is a replacement PATTERN: `$$`, `$&`, `` $` `` and `$'`
 * are expanded. The regex has no capture groups, so `$1`, `$<name>` and a
 * `$` before any other character stay literal.
 */
module Substitution {
  import opened Strings

  /** The replacement text for one match, given the match and the text around it. */
  function Expand(replacement: string, matched: string, before: string, after: string): string
    decreases |replacement|
  {
    if replacement == [] then ""
    else if replacement[0] == '$' && |replacement| >= 2 && replacement[1] in {'$', '&', '`', '\''} then
      var piece :=
        if replacement[1] == '$' then "$"
        else if replacement[1] == '&' then matched
        else if replacement[1] == '`' then before
        else after;
      piece + Expand(replacement[2..], matched, before, after)
    else [replacement[0]] + Expand(replacement[1..], matched, before, after)
  }

  /** A replacement without `$` is inserted verbatim. */
  lemma {:induction false} ExpandPlain(replacement: string, matched: string, before: string, after: string)
    requires '$' !in replacement
    ensures Expand(replacement, matched, before, after) == replacement
  {
    if replacement != [] {
      assert replacement[0] != '$';
      ExpandPlain(replacement[1..], matched, before, after);
      assert [replacement[0]] + replacement[1..] == replacement;
    }
  }

  /**
   * `text.replace(regex, replacement)` when the global search finds exactly
   * one match, of length `len`, at offset `at`.
   */
  function ReplaceAt(text: string, at: nat, len: nat, replacement: string): (r: string)
    requires at + len <= |text|
    ensures StartsWith(r, text[..at]) && EndsWith(r, text[at + len..])
    ensures '$' !in replacement ==> r == text[..at] + replacement + text[at + len..]
  {
    var r := text[..at] + Expand(replacement, text[at..at + len], text[..at], text[at + len..]) + text[at + len..];
    if '$' in replacement then r
    else ExpandPlain(replacement, text[at..at + len], text[..at], text[at + len..]); r
  }
}

=== FILE: types.dfy ===
/**
 * The shared vocabulary of the editor front end (frontend/src/lib/types.ts):
 * the status tag of an AI reply, an edit pair, the reply itself and the
 * entries of the conversation history.
 */
module Types {
  import opened Wrappers

  /**
   * The `status` tag of a reply. The seven named tags are the declared
   * union; the reply arrives as parsed JSON and is not validated, so any
   * other tag is kept as `Unrecognised`. A reply's status is a `Status`,
   * which never spells a declared tag as `Unrecognised`.
   */
  datatype AiStatus =
    | Success
    | MultipleEdits
    | ReplaceAll
    | ClarificationNeeded
    | Conversation
    | Rejected
    | Failure
    | Unrecognised(tag: string)
  {
    /** The three kinds that propose a change to the document. */
    predicate IsProposal() {
      Success? || MultipleEdits? || ReplaceAll?
    }

    /** The tag as it appears on the wire. */
    function Name(): string {
      match this
      case Success => "success"
      case MultipleEdits => "multiple_edits"
      case ReplaceAll => "replace_all"
      case ClarificationNeeded => "clarification_needed"
      case Conversation => "conversation"
      case Rejected => "rejected"
      case Failure => "error"
      case Unrecognised(tag) => tag
    }
  }

  /** The wire names of the seven declared tags. */
  const DeclaredTags: set<string> :=
    {"success", "multiple_edits", "replace_all", "clarification_needed", "conversation", "rejected", "error"}

  /** A status tag with one model value per wire tag. */
  type Status = s: AiStatus | !(s.Unrecognised? && s.tag in DeclaredTags) witness Success

  /** Reads a wire tag: a declared name is its own constructor, anything else is unrecognised. */
  function FromName(tag: string): (s: Status)
    ensures s.Name() == tag
    ensures s.Unrecognised? <==> tag !in DeclaredTags
  {
    match tag
    case "success" => Success
    case "multiple_edits" => MultipleEdits
    case "replace_all" => ReplaceAll
    case "clarification_needed" => ClarificationNeeded
    case "conversation" => Conversation
    case "rejected" => Rejected
    case "error" => Failure
    case _ => Unrecognised(tag)
  }

  /** Every status is read back from its wire name: the tag determines the status. */
  lemma NameDetermines(s: Status)
    ensures FromName(s.Name()) == s
  {
  }

  /** Two statuses with the same wire name are the same status. */
  lemma NameInjective(a: Status, b: Status)
    ensures a.Name() == b.Name() <==> a == b
  {
    NameDetermines(a);
    NameDetermines(b);
  }

  /**
   * One `{old_string, new_string}` pair. `None` stands for a field that is
   * missing or is not a string: the store only ever asks `typeof x === 'string'`.
   */
  datatype Edit = Edit(oldString: Option<string>, newString: Option<string>)

  /** A reply: the status tag and the optional payload fields. */
  datatype AiResponse = AiResponse(
    status: Status,
    oldString: Option<string>,
    newString: Option<string>,
    edits: Option<seq<Edit>>,
    content: Option<string>,
    message: Option<string>)

  datatype MessageRole = User | Assistant | System

  datatype MessageType = Normal | Proposal | Loading | Error | SystemInfo

  /** A history entry holds either text or a whole reply object. */
  datatype MessageContent = Text(text: string) | Reply(response: AiResponse)

  datatype ConversationMessage = ConversationMessage(
    id: string,
    role: MessageRole,
    content: MessageContent,
    kind: MessageType)

  /** The `{role, content}` pairs sent to the back end as history; the content is always text. */
  datatype ApiMessage = ApiMessage(role: MessageRole, content: string)

  datatype ApiRequest = ApiRequest(
    currentFileContent: string,
    latestUserContent: string,
    history: seq<ApiMessage>,
    isFeedback: bool,
    previousProposal: Option<AiResponse>)
}

=== FILE: wrappers.dfy ===
/** Optional values: JavaScript's `undefined`/`null` and Python's `None`. */
module Wrappers {

  datatype Option<+T> = None | Some(value: T)
}
